=== FILE: README.md ===
# Analytics bot: a Dafny model of its data rules

The bot stores every message it sees in one MySQL table per Discord guild, keyed by
`message_id`, and keeps per-guild settings (timezone offset, user aliases, ignore lists)
in a shared `config` table. From those tables it ranks members and channels, and it draws
activity charts. This project models the decisions behind that, without Discord or MySQL:

- **Db** (`srg_analytics/DB.py`). The `DB` object is a class. It holds its connection flag, the
  guild tables (a map from guild id to a map from `message_id` to a row) and the `config` rows.
  Each statement is a function on a table: `INSERT IGNORE`, delete by id, the field-limited
  edit, the alias rewrite, a channel's deletion, and the timezone upsert and lookup.
  - Each method raises when there is no pool, and then changes nothing. Each method that
    reads or writes a guild's table also raises, changing nothing, when that table is missing.
  - The two count functions build their filter by appending. They are proved against the
    set of rows the filters select.
- **Top** (`srg_analytics/top.py`). This module covers the period check, the UTC+3 fallback
  and the start of each period on a civil calendar, plus the `others` row of the member
  ranking. It also covers the `Counter` and `most_common` of the channel ranking, and the
  chart title.
- **Activity** (`srg_analytics/activity.py`). This module covers the three-day span check,
  the granularity thresholds, the epoch bounds and the gap filling of a bucket series.
  - One series per user comes from `activity_user`.
  - Buckets are abstract ordered integers.
- **Listeners** (`cogs/Listeners.py`). This is the cog: its caches, and each handler's effect on
  the database, including the not-connected guards.
- **Admin** (`cogs/Admin.py`). This module models `harvest`: which channels and messages are
  kept, the alias owner each author resolves to, the record built for each message, and
  the progress notices.
- **Helpers** (`srg_analytics/helpers.py`). This module models `is_ignored`.
- **Backend** (`backend.py`). This module covers the `owner_ids` parsing, the log level,
  `is_admin`, and the `ConfirmButton` view as a class whose buttons are objects.
- **Calendar, Strings, Wrappers, SetFacts**. These support the rest: the `datetime`
  arithmetic the periods need, the Python string built-ins the code relies on (`split`,
  `join`, `str`, `int`, `upper`, `strip`, `replace`), and Option/Result/Outcome.

Inputs that come from outside are parameters:

- what a query returns;
- the wall clock, as a function from a UTC offset to a date-time;
- the host's UTC offset, one fixed value with no daylight saving;
- Discord messages and channels, as values.

## Model

| member | source | states |
|---|---|---|
| Db.InsertIgnore | srg_analytics/DB.py:117-138 | A row whose `message_id` is taken leaves the table unchanged. Otherwise exactly that row is added under its id and every other row is kept. |
| Db.StoredAsWritten | srg_analytics/DB.py:127-136 | The row `add_message` stores when every value is sent as text: the same row, except that `has_embed` is always false, because the text `True` or `False` has no leading digits. |
| Db.AddMessageAsWrittenLosesEmbed | srg_analytics/DB.py:117-138 | A new message with an embed keeps its flag when the flag is passed as a bool, and loses it when it is sent as `str(...)`. |
| Db.DeleteById | srg_analytics/DB.py:162-165 | Only the row with that id goes. The size drops by one exactly when the id was present. Every other row is unchanged. |
| Db.EditById | srg_analytics/DB.py:167-180 | The keys are unchanged. Only the matching row changes, and only in `message_length`, `has_embed` and `num_attachments`. |
| Db.SetAliasWhereAuthor | srg_analytics/DB.py:189-193 | Exactly the rows whose `author_id` is the alias get the new `aliased_author_id`. Every other row and column is unchanged. |
| Db.DeleteChannelRows | cogs/Listeners.py:64-69 | The remaining keys are exactly the rows of other channels, with their contents unchanged. |
| Db.DeleteConfigRow | srg_analytics/DB.py:198-201 | The matching alias row is gone. Every other row survives and nothing is added. |
| Db.DeleteConfigOfGuild | cogs/Listeners.py:53 | A config row survives iff its `data1` is not the guild. |
| Db.LookupTimezone | srg_analytics/DB.py:259-266 | None when the guild has no timezone row; otherwise the `data2` of one of its rows. |
| Db.UpsertTimezone | srg_analytics/DB.py:241-257 | Adds a row only when the guild had none. Afterwards every row of the guild holds the new offset, and other rows are unchanged. |
| Db.LookupAfterUpsert | srg_analytics/DB.py:241-266 | After `set_timezone(g, tz)`, `get_timezone(g)` reads back `tz`. |
| Db.LookupOtherAfterUpsert | srg_analytics/DB.py:241-266 | Setting one guild's timezone leaves every other guild's lookup as it was. |
| Db.WhereClause | srg_analytics/DB.py:272-284 | The WHERE clause is empty exactly when there are no conditions. It holds exactly one `%s` placeholder per condition and no `?`. |
| Db.FromTable | srg_analytics/DB.py:271 | The statement on the guild's table, before its filter, holds no `%` and no `?`, so every placeholder of the final query comes from the filter. |
| Db.BuildFilter | srg_analytics/DB.py:269-284 | The query is the base statement followed by the WHERE clause. Its `%s` placeholders outnumber the base's by exactly the number of parameters. The condition and parameter lists have equal length, at most two, channel first. They are empty iff no filter is given. A row satisfies the built clause, with the i-th placeholder bound to the i-th parameter, iff it matches the filters on `channel_id` and `author_id`. |
| Db.CountWithoutFilters | srg_analytics/DB.py:269-289 | With no filter the count is the number of rows. |
| Db.CountAfterInsert | srg_analytics/DB.py:117-138 | A stored message raises every count whose filter it matches by one. A duplicate id changes no count. |
| Db.CountAfterDelete | srg_analytics/DB.py:162-165 | Deleting a message lowers exactly the counts that included it, by one. |
| Db.TotalsAfterEdit | srg_analytics/DB.py:167-180 | An edit keeps every filter's selection. The character total moves by the change in length when the row is selected. |
| Db.TotalsAfterAliasRewrite | srg_analytics/DB.py:182-206 | Alias rewrites change neither counts nor character totals. |
| Db.CountAfterChannelDelete | cogs/Listeners.py:64-69 | After a channel delete, a count filtered on that channel is empty and every other channel's selection is unchanged. |
| Db.PlaceholderQuery | srg_analytics/DB.py:89 | No `?` remains, and each `?` became the two characters `%s`. A query without `?` is unchanged. |
| Db.PlaceholderQueryIsSplitJoin | srg_analytics/DB.py:89 | The rewrite equals `"%s".join(query.split("?"))`, so the text between placeholders is kept in order. |
| Db.LookupIsFetchOne | srg_analytics/DB.py:259-266 | The timezone lookup is `res[0]` of what `execute(..., fetch="one")` returns for the query's result rows, or None when no row comes back. The result is empty iff the guild has no timezone row. |
| Db.Database.constructor | srg_analytics/DB.py:10-15 | A new object has no pool, and the server's tables are as given. |
| Db.Database.Connect | srg_analytics/DB.py:17-23 | Afterwards there is a pool. A second call changes nothing. |
| Db.Database.AddGuild | srg_analytics/DB.py:58-76 | Creates an empty table only if none exists, so it is idempotent. Without a pool it raises and changes nothing. |
| Db.Database.RemoveGuild | srg_analytics/DB.py:78-82 | Drops the guild's table if present. Without a pool it raises and changes nothing. |
| Db.Database.AddMessage | srg_analytics/DB.py:117-138 | Applies `INSERT IGNORE` of the row as given, embed flag included, to the guild's table. It raises, changing nothing, without a pool or table. |
| Db.Database.DeleteMessage | srg_analytics/DB.py:162-165 | Applies the delete by id to the guild's table. It raises, changing nothing, without a pool or table. |
| Db.Database.EditMessage | srg_analytics/DB.py:167-180 | Applies the field-limited edit to the guild's table. It raises, changing nothing, without a pool or table. |
| Db.Database.DeleteChannel | cogs/Listeners.py:69 | Applies the channel delete to the guild's table. It raises, changing nothing, without a pool or table. |
| Db.Database.DeleteGuildConfig | cogs/Listeners.py:53 | Deletes the guild's config rows. Without a pool it raises and changes nothing. |
| Db.Database.AddUserAlias | srg_analytics/DB.py:182-193 | The alias row is inserted first, and only then does the rewrite, run only with `update_existing`, set `aliased_author_id := user_id`. A missing guild table fails after the config row is written. |
| Db.Database.RemoveUserAlias | srg_analytics/DB.py:195-206 | The alias row is deleted first. The rewrite, run only with `update_existing`, then sets `aliased_author_id` to NULL on that alias's rows. |
| Db.Database.SetTimezone | srg_analytics/DB.py:241-257 | Inserts when the guild has no timezone row, else updates. Without a pool it changes nothing. |
| Db.Database.GetTimezone | srg_analytics/DB.py:259-266 | Reads the `fetchone` row's first column: None for an unset guild, else a stored offset of that guild. Without a pool it raises. |
| Db.Database.GetMessageCount | srg_analytics/DB.py:269-289 | The number of rows matching the optional channel and `author_id` filters. It raises without a pool or table. |
| Db.Database.GetCharacterCount | srg_analytics/DB.py:291-311 | The sum of `message_length` over the same rows, or None (SQL NULL) when none match. It raises without a pool or table. |
| Db.CountRows | srg_analytics/DB.py:269-289 | The statement it runs, `SELECT COUNT(*)` on the guild table plus the filter, has one placeholder per parameter. The row-by-row count equals the size of the filtered selection. |
| Db.SumRows | srg_analytics/DB.py:291-311 | The statement it runs has one placeholder per parameter. The row-by-row sum equals the sum over the filtered selection, or None when nothing matches. |
| Top.SliceBound | srg_analytics/top.py:61 | The end index of Python's `s[:i]`, negative `i` included, clamped to the length. |
| Top.TakeTake | srg_analytics/top.py:55-63 | Slicing an already limited result again with the same non-negative `amount` changes nothing. |
| Top.ParsePeriod | srg_analytics/top.py:16-17 | Accepts exactly day, week, month, year or None, naming the period accepted. Anything else is the ValueError. |
| Top.ResolveOffset | srg_analytics/top.py:19-23 | A missing or zero offset gives UTC+3, and any other offset is used as is. An offset of a whole day or more is refused as `datetime.timezone` does. |
| Top.OffsetAfterSetTimezone | srg_analytics/top.py:19-23 | After `set_timezone(g, tz)` the ranking uses `tz`, or 3 when `tz` is 0. |
| Top.PeriodStart | srg_analytics/top.py:26-39 | Day, month and year give midnight of today, the 1st and 1 January, in the current year. Week gives now minus seven days. None gives no bound. Every bound is no later than now, and only a week before year 1 fails. |
| Top.MidnightOf | srg_analytics/top.py:28-37 | The `replace(...)` date is valid, at midnight, with the requested month and day, and no later than now. |
| Top.WeekBefore | srg_analytics/top.py:31 | `now - timedelta(days=7)` is exactly seven days earlier. It overflows exactly in the first seven days of year 1. |
| Top.Members | srg_analytics/top.py:62-63 | The ranking rows are passed through one for one, in order. |
| Top.OthersFold | srg_analytics/top.py:60-61 | The first `amount` rows, then one `others` row holding the sum of the rest. The length is at most `amount + 1`. |
| Top.OthersFoldPreservesTotal | srg_analytics/top.py:60-61 | The counts of the folded ranking add up to the counts of all grouped rows. |
| Top.GetTopUsers | srg_analytics/top.py:11-83 | Covers the check order: period, then timezone, then period start, then the query. It also covers the `messages` query with or without `LIMIT`, the others-fold or plain slice, the `characters` query and slice, and None for any other type. |
| Top.FirstSeen | srg_analytics/top.py:165-168 | The `Counter` keys are exactly the channels that occur in the rows. |
| Top.FirstSeenDistinct | srg_analytics/top.py:165-168 | Each channel is a key once. |
| Top.InsertByTotal | srg_analytics/top.py:171 | Insertion adds one entry and keeps the others (as a multiset). |
| Top.InsertKeepsDescending | srg_analytics/top.py:171 | Insertion keeps a list sorted by descending total. |
| Top.InsertKeepsDistinct | srg_analytics/top.py:171 | Insertion of a new channel keeps channels distinct. |
| Top.MostCommon | srg_analytics/top.py:171 | `most_common()` returns a permutation of the tallies in descending order of total. |
| Top.MostCommonKeepsDistinct | srg_analytics/top.py:171 | Sorting keeps the channels distinct. |
| Top.CountCharacters | srg_analytics/top.py:165-168 | The counting loop yields one tally per channel, in first-seen order. Each tally is the sum of `len(message)` over that channel's rows. |
| Top.SortedTallies | srg_analytics/top.py:168-171 | After sorting, every entry is a channel of the rows with its true total, and no channel is lost. |
| Top.TopChannelsByCharacters | srg_analytics/top.py:155-173 | The result has the Python slice length and is in descending order with distinct channels. Each total is its channel's true sum, and no omitted channel beats an included one. |
| Top.TakeHoldsLargest | srg_analytics/top.py:173 | A prefix of a descending list is at least as large as anything cut off. |
| Top.GetTopChannels | srg_analytics/top.py:142-173 | `messages` gives the grouped counts with `LIMIT` (refused when negative) and `characters` gives the ranking above. Both raise on a missing table, and any other type gives None. |
| Top.TitlePeriod | srg_analytics/top.py:115-124 | None gives `All Time`; day, week, month and year give `today`, `this Week`, `this Month` and `this Year`; any other text is kept as it is. |
| Top.TitlePeriodInjective | srg_analytics/top.py:115-124 | Each accepted period has its own title word: today, this Week, this Month, this Year, All Time. |
| Activity.SpanDays | srg_analytics/activity.py:13-17 | `(end - start).days` is the floor of the difference in days. |
| Activity.SpanCheckMeansThreeDays | srg_analytics/activity.py:13-14 | The span check passes iff the dates are at least three full days apart. |
| Activity.GranularityFor | srg_analytics/activity.py:17-29 | Daily below 32 days, weekly below 185, monthly below 1100, and yearly from there on, each iff its range holds. |
| Activity.GranularityMonotone | srg_analytics/activity.py:111-123 | A longer span never gets a finer granularity. |
| Activity.TruncSeconds | srg_analytics/activity.py:32 | `int(x)` truncates toward zero, for negative values too. |
| Activity.EpochBoundsOrdered | srg_analytics/activity.py:32-33 | Both bounds subtract the same offset, so a later end never gives an earlier bound. |
| Activity.FillGaps | srg_analytics/activity.py:68-73 | Every bucket from the first to the last observed appears once, in order. Observed buckets keep their count, missing ones get 0, and the total is preserved. An empty result is the ValueError of `min`. |
| Activity.ActivityServer | srg_analytics/activity.py:11-73 | A span under three days fails before any query. Otherwise it issues one query with the granularity and bounds above, and returns its gap-filled series. |
| Activity.ActivityUser | srg_analytics/activity.py:103-163 | The length check comes first, then the span check. After that there is one query per user, in order, filtered to that user, and one series per user labelled with the nickname. The first user with no rows raises. |
| Admin.FirstListing | cogs/Admin.py:45-48 | The index of the first alias list containing the author, in dict order. |
| Admin.ListedIffAlias | cogs/Admin.py:28-48 | Some list contains the author iff the author is in the flattened alias set. |
| Admin.ResolveAuthor | cogs/Admin.py:43-48 | The author becomes the owner of the first list containing it, and is otherwise unchanged. |
| Admin.MentionsTextReadsBack | cogs/Admin.py:40-57 | `mentions` is None iff nobody is mentioned, and the `,`-join reads back as the mention ids. |
| Admin.KeptMeaning | cogs/Admin.py:35-38 | A message is kept iff it is in the history and its author is not ignored. |
| Admin.ChannelRecordsName | cogs/Admin.py:50-61 | Every record of a channel carries that channel's id. |
| Admin.ChannelRecordsStep | cogs/Admin.py:35-63 | Each history message adds its record, unless its author is ignored. |
| Admin.IgnoredChannelsContributeNothing | cogs/Admin.py:30-32 | No record comes from an ignored channel. |
| Admin.FirstIndexOfId | cogs/Admin.py:67 | `text_channels.index(channel)` is the first position holding that channel. |
| Admin.NoticesInRange | cogs/Admin.py:65-70 | At most one notice per channel. Each notice names a channel that is not ignored, with a 1-based position and the full channel count. |
| Admin.NoticesCountEveryChannel | cogs/Admin.py:65-70 | With distinct ids and nothing ignored, the k-th notice reads `k+1/total` for the k-th channel. |
| Admin.IndexOfDistinct | cogs/Admin.py:67 | With distinct channel ids, `text_channels.index(channel)` is the channel's own position. |
| Admin.NoticesNumberedByPosition | cogs/Admin.py:30-70 | With distinct ids, a notice is sent iff it reads `k+1/total` for a channel at position k that is not ignored. An ignored channel's number is skipped, not reused. |
| Admin.NoticesInChannelOrder | cogs/Admin.py:30-70 | With distinct ids, the notices come in channel order: their numbers strictly increase. |
| Admin.IgnoredChannelSkipsNumber | cogs/Admin.py:30-67 | An ignored first channel makes the only notice read `2/2`, so the numbering skips. |
| Admin.HarvestChannel | cogs/Admin.py:35-63 | The message loop yields exactly that channel's records. |
| Admin.HarvestChannels | cogs/Admin.py:30-70 | The channel loop yields every kept channel's records and one notice per kept channel. |
| Admin.Harvest | cogs/Admin.py:20-76 | Returns all records and notices followed by one completion notice. A guild missing from the ignore map raises before anything is sent. |
| Helpers.FetchIgnoreRow | srg_analytics/helpers.py:13-17 | `fetchone` gives None iff no row has that key and id, and otherwise a matching row. |
| Helpers.FetchIgnoreRowIsFetchOne | srg_analytics/helpers.py:13-17 | `execute(..., fetch="one")` on the ignore query's result rows returns that first matching row. |
| Helpers.Verdict | srg_analytics/helpers.py:37-38 | True when either flag is set, else None. Never False. |
| Helpers.ChannelFlagAsWrittenNeverSet | srg_analytics/helpers.py:13-19 | As written, the channel flag is false whatever the config holds. |
| Helpers.IgnoredAsWrittenMissesChannel | srg_analytics/helpers.py:12-21 | As written, an ignored channel asked about alone gives None. |
| Helpers.IsIgnored | srg_analytics/helpers.py:4-38 | Both ids None is the ValueError, and there is one lookup per supplied id. The result is True iff a supplied id has its ignore row, else None. Without a pool it raises. |
| Listeners.Listeners.constructor | cogs/Listeners.py:7-13 | The caches start empty. |
| Listeners.Listeners.OnMessage | cogs/Listeners.py:72-122 | Direct and system messages are never stored, and ignored channels and authors are dropped. The stored row has the raw author, the cached alias or the author, the content length, the embed flag and the attachment count, and is inserted with `INSERT IGNORE`. The pool is opened when missing. |
| Listeners.Listeners.OnMessageEdit | cogs/Listeners.py:21-31 | Without a pool it connects and changes nothing. Otherwise it writes `after`'s length, embed flag and attachment count to the row of `before.id`. |
| Listeners.Listeners.OnGuildJoin | cogs/Listeners.py:34-41 | Without a pool it connects and changes nothing. Otherwise it creates the table if absent. |
| Listeners.Listeners.OnGuildRemove | cogs/Listeners.py:44-53 | Without a pool it connects and changes nothing. Otherwise it drops the table and the guild's config rows. |
| Listeners.Listeners.OnMessageDelete | cogs/Listeners.py:56-61 | Without a pool it connects and changes nothing. Otherwise it deletes the row. |
| Listeners.Listeners.OnGuildChannelDelete | cogs/Listeners.py:64-69 | Deletes exactly that channel's rows. There is no guard, so without a pool it raises. |
| Listeners.Listeners.Cache | cogs/Listeners.py:124-139 | Connects if needed. It replaces the alias cache with what was fetched, or keeps it when fetching raised, and never touches the ignore caches. |
| Backend.ParseAll | backend.py:46 | The list comprehension succeeds iff every part parses, giving each part's value. |
| Backend.ParseIdListOfJoin | backend.py:45-48 | A non-empty id list written with `,` reads back as itself. |
| Backend.ParseIdListOfEmpty | backend.py:45-46 | An empty setting is refused. |
| Backend.SelectLevel | backend.py:69-73 | The level is `upper().strip()` of the setting when that is one of the five names. Otherwise it is INFO, with a warning naming the normalised value. |
| Backend.SelectLevelIdempotent | backend.py:69-73 | Selecting from a selected level keeps it, with no warning. |
| Backend.IsAdmin | backend.py:102-115 | False outside a guild. Inside one, true iff the user is a bot owner, the guild owner, or an administrator. |
| Backend.Button.constructor | backend.py:125 | A new button is enabled and carries its caption. |
| Backend.ConfirmButton.constructor | backend.py:120-123 | No answer yet, not stopped, and two enabled buttons, Confirm and Cancel. |
| Backend.ConfirmButton.DisableAll | backend.py:133-134 | Every child is disabled. |
| Backend.ConfirmButton.ConfirmCallback | backend.py:126-137 | Another user's click changes nothing. The author's click sets the answer to True, disables every button, and stops the view once the reply is delivered. The view stays consistent. |
| Backend.ConfirmButton.CancelCallback | backend.py:140-150 | The same transitions with the answer False. |
| Backend.ConfirmButton.TimeOut | backend.py:119-121 | When the default View timeout runs out on a view that still listens, the view stops and the answer stays as it was (None if the author never answered), with the buttons unchanged and the view consistent. |
| Calendar.PrevDay | srg_analytics/top.py:31 | The day before, at the same time of day, exactly one ordinal earlier. None only on 1 January of year 1. |
| Calendar.MinusDays | srg_analytics/top.py:31 | `d - timedelta(days=n)` is `n` days earlier at the same time of day. None iff that falls before year 1. |
| Calendar.UnixEpochOrdinalIsOrdinal | srg_analytics/activity.py:32 | The Unix epoch constant is the ordinal of 1970-01-01. |
| Strings.ParseIntOfIntToString | backend.py:46 | `int(str(n)) == n` for every integer. |
| Strings.SplitJoin | backend.py:45 | Splitting a `,`-join of comma-free parts gives the parts back. |

## Left out

- The pool, `async`/`await` and `asyncio.create_task`. Every call is one sequential step, and a pool is a flag.
- Db.Database.Connect: does not model `_create_data_tables`. The `ignores`, `timezones` and `aliases` tables it creates are read by nothing in this core.
- `_create_data_tables` (`srg_analytics/DB.py:25-56`) creates only `ignores`, `timezones` and `aliases`, never `config`. On a fresh database every statement on `config` therefore raises: the timezone statements, the alias statements, `is_ignored` and `on_guild_remove`. The model assumes the `config` table exists.
- The `config` table's schema does not appear in the source. Its columns `_key, data1, data2, data3` follow the order of its INSERT statements. `data1`, `data2` and `data3` are assumed to be integer columns. The `int(timezone)` at `srg_analytics/top.py:23` hints that `data2` might be text; a text `'0'` would then be truthy and give UTC+0, where the model's integer 0 gives the UTC+3 fallback of `srg_analytics/top.py:20-21`.
- The timezone statements quote their placeholder (`'%s'`), so the guild id reaches MySQL as the text `'123'`. MySQL compares that text with the integer `data1` numerically. The model's comparison of `data1` with the guild id is therefore what the statements do.
- `add_messages_bulk` has eight values for seven placeholders, column-wise. It is not modelled.
- `get_user_aliases` never fills its dictionary, and has a malformed placeholder. It is not modelled. The `cache` task takes the fetched value as a parameter.
- `get`, `get_guilds`, and `execute`'s commit are not modelled; nothing in this core reads them. `execute` is modelled as its placeholder rewrite and fetch modes.
- Top.GetTopUsers: the ranking queries name `is_bot` and `message_content`, which the table created by `add_guild` lacks. The grouped rows are an input, sorted by descending count.
- Top.MostCommon: does not state that ties keep first-seen order. Only the descending order and the permutation are proved.
- `datetime.now` and timezone objects are parameters. Calendar arithmetic is proleptic Gregorian, as in Python's `datetime`.
- Activity.ActivityServer: the SQL date functions, the `%W` week-label parse and pandas' `date_range`/`merge` are not modelled. Buckets are abstract integers, consecutive when adjacent, so no claim is made that the week labels round-trip.
- Activity.EpochBound, Activity.QueryFor, Activity.ActivityServer, Activity.ActivityUser: the host is assumed to have one fixed UTC offset, `hostOffsetSeconds`, with no daylight saving. For naive dates `timestamp()` uses the host's offset in force at each date, which can differ between the start and the end of a period; the model does not capture that. If the dates are aware with a fixed-offset `datetime.timezone`, as the one `cogs/Activity.py:77-81` builds, the constant is exact.
- Activity.TruncSeconds: `timestamp()` is a float. The model keeps microseconds exactly and truncates to whole seconds, which agrees with the float except where rounding of very large values would differ.
- Plotting, matplotlib styles, image buffers and random file names.
- Admin.Harvest: `get_ignore_list` and the one-argument `add_message` do not exist on `DB`. The ignore lists and aliases are inputs, and the output is the sequence of records handed to `add_message`. A guild missing from the channel-ignore map raises at the first channel; the model checks this before the loop, which is equivalent because nothing is sent before that point.
- Admin.Harvest: a message whose reference carries no message id makes `int(None)` raise a TypeError, which ends the command after the records so far. The model treats the reference as a message id or none, so it does not capture that failure.
- Admin.Harvest: the record's `epoch` is the float `created_at.timestamp()` (`cogs/Admin.py:55`), which carries the milliseconds of Discord's snowflake time. The model's `createdAt` and the record's `epoch` keep whole seconds only, so Admin.HarvestChannel and Admin.HarvestChannels hand `add_message` the truncated value.
- Admin.HarvestChannels: the records' `epoch` is whole seconds, where the source passes the float `created_at.timestamp()`; see the Admin.Harvest line above.
- Admin.HarvestChannel: the record's `epoch` is whole seconds, not the float `created_at.timestamp()`.
- Admin.HarvestChannel: like Admin.Harvest, assumes every reference it meets carries a message id.
- Admin: `add_ignore` and `add_user_alias` commands are Discord glue over `DB` calls that are modelled or missing.
- Listeners.Listeners.Cache: the ignore caches are never refreshed, because the lines that would do so are commented out. The model keeps them as they are.
- Backend.ConfirmButton: the timeout is an event, Backend.ConfirmButton.TimeOut, with no clock behind it; the 180 seconds are not counted.
- Backend.ConfirmButton.CancelCallback: replies and `stop()` are Discord calls. Whether the reply reached Discord is the `delivered` parameter. The view stops only once the reply was delivered, which covers `edit_original_message` raising.
- Config file reading and logger set-up (`backend.py:20-38`, `backend.py:50-66`) are not modelled, apart from the `owner_ids`/`owner_guilds` parsing and the level choice.
- Embeds, `error_template` and the other cogs (`Activity`, `Leaderboard`, `Owners`, `Main`) are not modelled. `profile.py` is not part of this model.
- Strings.ParseInt: `int()` also accepts `_` between digits and non-ASCII decimal digits. The model accepts ASCII digits only.
- Strings.UpperChar: `str.upper()` maps non-ASCII letters too, and some of them to several characters. The model maps the ASCII letters, and also `ı` (U+0131) to `I` and `ſ` (U+017F) to `S`. These are the only characters whose upper case is a single ASCII letter. The other characters with ASCII upper-case forms (`ß` to `SS`, and the ligatures `ﬀ ﬁ ﬂ ﬃ ﬄ ﬅ ﬆ`) cannot form DEBUG, INFO, WARNING, ERROR or CRITICAL. So Backend.SelectLevel picks the same level as the source does. Only the text of the warning about an invalid value can differ.
- Listeners.Listeners.OnMessage: `add_message` sends the epoch as the text of a float, which the `BIGINT` column rounds to whole seconds. The model's `createdAt` is that stored whole-second value.
- Some imported names are not defined in the source. `get_db_creds` is imported from `backend.py` by `srg_analytics/activity.py:8` and `cogs/Listeners.py:2`. `DataTemplate` is imported from `srg_analytics/schemas.py` by `cogs/Admin.py:4`. `remove_ignore_autocomplete` is imported from `backend.py` by `cogs/Admin.py:6`. As written, those modules fail at import. The model assumes they load and that a connection factory exists.
- Integers are unbounded: the `BIGINT`/`SMALLINT` widths of the schema are not enforced.

## Findings

| source | as written | input that shows it | evidently intended | confidence | as-written member | corrected member |
|---|---|---|---|---|---|---|
| srg_analytics/helpers.py:15-19 | The channel lookup selects `*`, then compares `res[0]` (the text column `_key`) with the integer channel id. So the channel flag is never set. | config holds `('channel_ignore', 7, NULL, NULL)`, and `is_ignored(db, channel_id=7)` returns None | compare the `data1` column, as the user branch does | medium, not executed | Helpers.IgnoredAsWrittenMissesChannel | Helpers.IsIgnored |
| srg_analytics/DB.py:127-136 | `add_message` sends every value as `str(...)`, so `has_embed` reaches the `BOOLEAN` column as the text `True` or `False`. Under `INSERT IGNORE` the conversion failure is a warning and the column keeps 0. | a new message with one embed, passed through `on_message`, is stored with `has_embed = 0` | pass `has_embed` as a bool, which the driver renders as 1 or 0 | medium (depends on the server's conversion of text to integer), not executed | Db.AddMessageAsWrittenLosesEmbed | Db.Database.AddMessage |

=== FILE: activity.dfy ===
/**
 * The activity charts of `srg_analytics/activity.py`: the span check, the choice of
 * bucket size from the span, the epoch bounds of the query, and the gap-filled series of
 * message counts per bucket, for a whole guild or for each of a list of members. Buckets
 * are numbered consecutively (one number per day, week, month or year), so "the next
 * bucket" is the next number; the rows each query returns are inputs.
 */
module Activity {
  import opened Wrappers
  import Calendar

  datatype ActivityError =
    | LengthMismatch  // user_ids and user_nicknames differ in length (ValueError)
    | SpanTooShort    // fewer than 3 whole days between the dates (ValueError)
    | NoActivity      // `min` of an empty date column (ValueError)

  // ---------------------------------------------------------------------------
  // Span, bucket size and epoch bounds
  // ---------------------------------------------------------------------------

  /** `(end_date - start_date).days`: the span in whole days, rounded down. */
  function SpanDays(start: Calendar.DateTime, end: Calendar.DateTime): (days: int)
    requires Calendar.Valid(start) && Calendar.Valid(end)
    ensures days * Calendar.MicrosPerDay <= Calendar.LocalMicros(end) - Calendar.LocalMicros(start)
    ensures Calendar.LocalMicros(end) - Calendar.LocalMicros(start) < (days + 1) * Calendar.MicrosPerDay
  {
    (Calendar.LocalMicros(end) - Calendar.LocalMicros(start)) / Calendar.MicrosPerDay
  }

  /** The span check both charts make first (after the length check of the member chart). */
  predicate SpanLongEnough(start: Calendar.DateTime, end: Calendar.DateTime)
    requires Calendar.Valid(start) && Calendar.Valid(end)
  {
    SpanDays(start, end) >= 3
  }

  /** A span shorter than three full days of wall-clock time is refused, and only such a span. */
  lemma SpanCheckMeansThreeDays(start: Calendar.DateTime, end: Calendar.DateTime)
    requires Calendar.Valid(start) && Calendar.Valid(end)
    ensures SpanLongEnough(start, end) <==>
      Calendar.LocalMicros(end) - Calendar.LocalMicros(start) >= 3 * Calendar.MicrosPerDay
  {
  }

  datatype Granularity = Daily | Weekly | Monthly | Yearly

  function Rank(g: Granularity): nat {
    match g
    case Daily => 0
    case Weekly => 1
    case Monthly => 2
    case Yearly => 3
  }

  /** The bucket size for a span of `days` days: one chart point per day, week, month or year. */
  function GranularityFor(days: int): (g: Granularity)
    ensures g == Daily <==> days < 32
    ensures g == Weekly <==> 32 <= days < 185
    ensures g == Monthly <==> 185 <= days < 1100
    ensures g == Yearly <==> 1100 <= days
  {
    if days < 32 then Daily
    else if days < 185 then Weekly
    else if days < 1100 then Monthly
    else Yearly
  }

  /** A longer span never gets finer buckets. */
  lemma GranularityMonotone(d1: int, d2: int)
    requires d1 <= d2
    ensures Rank(GranularityFor(d1)) <= Rank(GranularityFor(d2))
  {
  }

  /** `int(x)` of the number of seconds in `micros` microseconds: truncation toward zero. */
  function TruncSeconds(micros: int): (s: int)
    ensures micros >= 0 ==> s >= 0 && s * Calendar.MicrosPerSecond <= micros < (s + 1) * Calendar.MicrosPerSecond
    ensures micros < 0 ==> s <= 0 && (s - 1) * Calendar.MicrosPerSecond < micros <= s * Calendar.MicrosPerSecond
  {
    if micros >= 0 then micros / Calendar.MicrosPerSecond else -((-micros) / Calendar.MicrosPerSecond)
  }

  /**
   * `int(d.timestamp()) - offset * 3600`. For a naive date `timestamp()` uses the host's
   * time zone, taken here to be a fixed `hostOffsetSeconds` east of UTC with no daylight
   * saving; for a date made aware with a fixed-offset `datetime.timezone` it is that offset.
   */
  function EpochBound(d: Calendar.DateTime, offset: int, hostOffsetSeconds: int): int
    requires Calendar.Valid(d)
  {
    TruncSeconds(Calendar.EpochMicros(d, 0) - hostOffsetSeconds * Calendar.MicrosPerSecond) - offset * 3600
  }

  lemma TruncSecondsMonotone(a: int, b: int)
    requires a <= b
    ensures TruncSeconds(a) <= TruncSeconds(b)
  {
  }

  /** The bounds keep the order of the dates: a later end never gives an earlier bound. */
  lemma EpochBoundsOrdered(start: Calendar.DateTime, end: Calendar.DateTime, offset: int, hostOffsetSeconds: int)
    requires Calendar.Valid(start) && Calendar.Valid(end)
    requires Calendar.LocalMicros(start) <= Calendar.LocalMicros(end)
    ensures EpochBound(start, offset, hostOffsetSeconds) <= EpochBound(end, offset, hostOffsetSeconds)
  {
    TruncSecondsMonotone(
      Calendar.EpochMicros(start, 0) - hostOffsetSeconds * Calendar.MicrosPerSecond,
      Calendar.EpochMicros(end, 0) - hostOffsetSeconds * Calendar.MicrosPerSecond);
  }

  // ---------------------------------------------------------------------------
  // Filling the gaps of a series
  // ---------------------------------------------------------------------------

  /** One row of an activity query: a bucket and its message count. */
  datatype Bucket = Bucket(period: int, count: int)

  /** `GROUP BY period ORDER BY period ASC`: each bucket once, in ascending order. */
  predicate Ascending(rows: seq<Bucket>) {
    forall i, j :: 0 <= i < j < |rows| ==> rows[i].period < rows[j].period
  }

  /** The count the rows give a bucket, 0 when no row has it (the left merge and `fillna(0)`). */
  function CountAt(rows: seq<Bucket>, p: int): int {
    if rows == [] then 0 else if rows[0].period == p then rows[0].count else CountAt(rows[1..], p)
  }

  function Total(rows: seq<Bucket>): int {
    if rows == [] then 0 else Total(rows[..|rows| - 1]) + rows[|rows| - 1].count
  }

  lemma {:induction false} CountAtRow(rows: seq<Bucket>, j: int)
    requires Ascending(rows) && 0 <= j < |rows|
    ensures CountAt(rows, rows[j].period) == rows[j].count
  {
    if j > 0 {
      CountAtRow(rows[1..], j - 1);
    }
  }

  lemma {:induction false} CountAtMissing(rows: seq<Bucket>, p: int)
    requires forall i :: 0 <= i < |rows| ==> rows[i].period != p
    ensures CountAt(rows, p) == 0
  {
    if rows != [] {
      CountAtMissing(rows[1..], p);
    }
  }

  /**
   * One step of the gap filling: with the rows before `j` below bucket `p` and row `j` at or
   * above it, the count of `p` is row `j`'s when it sits at `p` and 0 otherwise.
   */
  lemma FillStep(rows: seq<Bucket>, j: int, p: int)
    requires Ascending(rows) && 0 <= j < |rows|
    requires forall k :: 0 <= k < j ==> rows[k].period < p
    requires rows[j].period >= p
    ensures CountAt(rows, p) == if rows[j].period == p then rows[j].count else 0
    ensures Total(rows[..j + 1]) == Total(rows[..j]) + rows[j].count
    ensures j + 1 < |rows| ==> rows[j + 1].period > rows[j].period
  {
    if rows[j].period == p {
      CountAtRow(rows, j);
    } else {
      CountAtMissing(rows, p);
    }
    assert rows[..j + 1][..j] == rows[..j];
  }

  /**
   * The series `full_range.merge(df, on='date', how='left').fillna(0)` gives: every bucket
   * from the first observed to the last, once each and in order, with its count or 0.
   */
  ghost predicate IsFilled(rows: seq<Bucket>, series: seq<Bucket>)
    requires rows != []
  {
    && |series| == rows[|rows| - 1].period - rows[0].period + 1
    && forall i :: 0 <= i < |series| ==> series[i] == Bucket(rows[0].period + i, CountAt(rows, rows[0].period + i))
  }

  /**
   * The gap filling of both charts: None where `min(df['date'])` raises because the query
   * returned no row.
   */
  method FillGaps(rows: seq<Bucket>) returns (r: Result<seq<Bucket>, ActivityError>)
    requires Ascending(rows)
    ensures r.Err? <==> rows == []
    ensures r.Err? ==> r.error == NoActivity
    ensures r.Ok? ==> IsFilled(rows, r.value)
    ensures r.Ok? ==> Total(r.value) == Total(rows)
  {
    if rows == [] {
      return Err(NoActivity);
    }
    var first, last := rows[0].period, rows[|rows| - 1].period;
    assert first <= last by {
      if |rows| > 1 {
        assert rows[0].period < rows[|rows| - 1].period;
      }
    }
    var series: seq<Bucket> := [];
    var j := 0;
    while first + |series| <= last
      invariant 0 <= j <= |rows| && |series| <= last - first + 1
      invariant j < |rows| ==> rows[j].period >= first + |series|
      invariant j == |rows| <==> |series| == last - first + 1
      invariant forall k :: 0 <= k < j ==> rows[k].period < first + |series|
      invariant forall i :: 0 <= i < |series| ==> series[i] == Bucket(first + i, CountAt(rows, first + i))
      invariant Total(series) == Total(rows[..j])
      decreases last - first - |series|
    {
      var p := first + |series|;
      var count := 0;
      FillStep(rows, j, p);
      if rows[j].period == p {
        count := rows[j].count;
        j := j + 1;
      }
      assert (series + [Bucket(p, count)])[..|series|] == series;
      series := series + [Bucket(p, count)];
    }
    assert rows[..j] == rows;
    r := Ok(series);
  }

  // ---------------------------------------------------------------------------
  // The two charts
  // ---------------------------------------------------------------------------

  /**
   * The parameters of an activity query: bucket size, the offset added to `epoch` before
   * bucketing, the `BETWEEN` bounds and, for the member chart, the `aliased_author_id`.
   */
  datatype ActivityQuery = ActivityQuery(granularity: Granularity, offset: int, startEpoch: int, endEpoch: int, user: Option<int>)

  function QueryFor(start: Calendar.DateTime, end: Calendar.DateTime, offset: int, hostOffsetSeconds: int,
                    user: Option<int>): (q: ActivityQuery)
    requires Calendar.Valid(start) && Calendar.Valid(end)
  {
    ActivityQuery(GranularityFor(SpanDays(start, end)), offset,
      EpochBound(start, offset, hostOffsetSeconds), EpochBound(end, offset, hostOffsetSeconds), user)
  }

  /**
   * `activity_server`: `rows` is what the guild query returns. The result is the plotted
   * series.
   */
  method ActivityServer(start: Calendar.DateTime, end: Calendar.DateTime, offset: int, hostOffsetSeconds: int,
                        rows: seq<Bucket>)
    returns (query: Option<ActivityQuery>, r: Result<seq<Bucket>, ActivityError>)
    requires Calendar.Valid(start) && Calendar.Valid(end)
    requires Ascending(rows)
    ensures !SpanLongEnough(start, end) ==> query == None && r == Err(SpanTooShort)
    ensures SpanLongEnough(start, end) ==> query == Some(QueryFor(start, end, offset, hostOffsetSeconds, None))
    ensures SpanLongEnough(start, end) ==> (r.Err? <==> rows == [])
    ensures SpanLongEnough(start, end) && r.Ok? ==> IsFilled(rows, r.value) && Total(r.value) == Total(rows)
  {
    if !SpanLongEnough(start, end) {
      return None, Err(SpanTooShort);
    }
    query := Some(QueryFor(start, end, offset, hostOffsetSeconds, None));
    r := FillGaps(rows);
  }

  /**
   * `activity_user`: one query and one labelled series per member, in the order of
   * `userIds`; `rowsFor(u)` is what the query for member `u` returns. The loop stops at
   * the first member without a message in the span, where `min` raises.
   */
  method ActivityUser(userIds: seq<int>, nicknames: seq<string>, start: Calendar.DateTime, end: Calendar.DateTime,
                      offset: int, hostOffsetSeconds: int, rowsFor: int -> seq<Bucket>)
    returns (queries: seq<ActivityQuery>, r: Result<seq<(string, seq<Bucket>)>, ActivityError>)
    requires Calendar.Valid(start) && Calendar.Valid(end)
    requires forall u :: Ascending(rowsFor(u))
    ensures |userIds| != |nicknames| ==> queries == [] && r == Err(LengthMismatch)
    ensures |userIds| == |nicknames| && !SpanLongEnough(start, end) ==> queries == [] && r == Err(SpanTooShort)
    ensures |userIds| == |nicknames| && SpanLongEnough(start, end) ==>
      && |queries| <= |userIds|
      && (forall k :: 0 <= k < |queries| ==> queries[k] == QueryFor(start, end, offset, hostOffsetSeconds, Some(userIds[k])))
      && (r.Ok? <==> forall k :: 0 <= k < |userIds| ==> rowsFor(userIds[k]) != [])
      && (r.Err? ==>
            && r.error == NoActivity && |queries| >= 1 && rowsFor(userIds[|queries| - 1]) == []
            && forall k :: 0 <= k < |queries| - 1 ==> rowsFor(userIds[k]) != [])
      && (r.Ok? ==>
            && |queries| == |userIds| && |r.value| == |userIds|
            && forall k :: 0 <= k < |userIds| ==>
                 r.value[k].0 == nicknames[k] && rowsFor(userIds[k]) != [] && IsFilled(rowsFor(userIds[k]), r.value[k].1))
  {
    queries := [];
    if |userIds| != |nicknames| {
      return queries, Err(LengthMismatch);
    }
    if !SpanLongEnough(start, end) {
      return queries, Err(SpanTooShort);
    }
    var plotted: seq<(string, seq<Bucket>)> := [];
    var k := 0;
    while k < |userIds|
      invariant 0 <= k <= |userIds| && |queries| == k && |plotted| == k
      invariant forall u :: Ascending(rowsFor(u))
      invariant forall i :: 0 <= i < k ==> queries[i] == QueryFor(start, end, offset, hostOffsetSeconds, Some(userIds[i]))
      invariant forall i :: 0 <= i < k ==>
        plotted[i].0 == nicknames[i] && rowsFor(userIds[i]) != [] && IsFilled(rowsFor(userIds[i]), plotted[i].1)
    {
      queries := queries + [QueryFor(start, end, offset, hostOffsetSeconds, Some(userIds[k]))];
      var series := FillGaps(rowsFor(userIds[k]));
      if series.Err? {
        return queries, Err(series.error);
      }
      plotted := plotted + [(nicknames[k], series.value)];
      k := k + 1;
    }
    r := Ok(plotted);
  }
}

=== FILE: admin.dfy ===
/**
 * The `/admin harvest` command: it walks every text channel's history and hands one record
 * per message to the database, skipping ignored channels and authors and crediting an
 * alias to its owner. Channel histories, the ignore lists and the alias lists are inputs.
 */
module Admin {
  import opened Wrappers
  import Strings
  import Backend

  /** A message as `channel.history` yields it. */
  datatype HistoryMessage = HistoryMessage(
    id: int,
    author: int,
    bot: bool,
    content: string,
    createdAt: int,            // `created_at.timestamp()`, truncated to whole seconds
    embeds: nat,
    attachments: nat,
    mentions: seq<int>,        // ids of the mentioned users, in order
    reference: Option<int>)    // the replied-to message id, if any

  /** A text channel and its whole history. */
  datatype Channel = Channel(id: int, history: seq<HistoryMessage>)

  /** One entry of the alias dictionary: an owner and the accounts credited to it. */
  datatype AliasEntry = AliasEntry(owner: int, aliases: seq<int>)

  /** The `DataTemplate` built for each harvested message. */
  datatype HarvestRecord = HarvestRecord(
    authorId: int,
    isBot: bool,
    hasEmbed: bool,
    channelId: int,
    epoch: int,
    numAttachments: nat,
    mentions: Option<string>,
    ctxId: Option<int>,
    messageContent: string,
    messageId: int)

  /** A message sent to the command's channel: one per harvested channel, then one at the end. */
  datatype Notice = Harvested(position: nat, total: nat, channel: int) | Complete

  /** `channel_ignores[guild]` raised KeyError. */
  datatype HarvestError = MissingGuild

  // ---------------------------------------------------------------------------
  // Alias owners
  // ---------------------------------------------------------------------------

  /** Every account listed under some owner. */
  function AllAliases(entries: seq<AliasEntry>): set<int> {
    if entries == [] then {} else (set a | a in entries[0].aliases) + AllAliases(entries[1..])
  }

  /** The position of the first entry listing `author`, or `|entries|` when none does. */
  function FirstListing(entries: seq<AliasEntry>, author: int): (k: nat)
    ensures k <= |entries|
    ensures forall j :: 0 <= j < k ==> author !in entries[j].aliases
    ensures k < |entries| ==> author in entries[k].aliases
  {
    if entries == [] then 0
    else if author in entries[0].aliases then 0
    else
      var k := 1 + FirstListing(entries[1..], author);
      assert forall j :: 1 <= j < k ==> entries[j] == entries[1..][j - 1];
      k
  }

  /** Some entry lists the author exactly when the author is in the flattened alias set. */
  lemma {:induction false} ListedIffAlias(entries: seq<AliasEntry>, author: int)
    ensures FirstListing(entries, author) < |entries| <==> author in AllAliases(entries)
  {
    if entries != [] && author !in entries[0].aliases {
      ListedIffAlias(entries[1..], author);
    }
  }

  /** The author a record is credited to: the first owner listing it, in dictionary order. */
  function ResolvedAuthor(entries: seq<AliasEntry>, author: int): int {
    var k := FirstListing(entries, author);
    if k < |entries| then entries[k].owner else author
  }

  /**
   * The alias step of `harvest`: an author found in `aliases` (the flattened set) is
   * replaced by the owner of the first list containing it; the loop stops there.
   */
  method ResolveAuthor(entries: seq<AliasEntry>, aliases: set<int>, author: int) returns (resolved: int)
    requires aliases == AllAliases(entries)
    ensures resolved == ResolvedAuthor(entries, author)
    ensures author !in aliases ==> resolved == author
    ensures author in aliases ==> exists k :: 0 <= k < |entries| && resolved == entries[k].owner && author in entries[k].aliases
  {
    resolved := author;
    ListedIffAlias(entries, author);
    if author in aliases {
      var i := 0;
      while i < |entries|
        invariant 0 <= i <= |entries|
        invariant forall j :: 0 <= j < i ==> author !in entries[j].aliases
        invariant resolved == author
      {
        if author in entries[i].aliases {
          resolved := entries[i].owner;
          break;
        }
        i := i + 1;
      }
    }
  }

  // ---------------------------------------------------------------------------
  // Records
  // ---------------------------------------------------------------------------

  /** `",".join(mentions) if mentions else None`. */
  function MentionsText(ids: seq<int>): Option<string> {
    if ids == [] then None else Some(Strings.Join(Backend.IdStrings(ids), ","))
  }

  /** The mentions column is None exactly when nobody is mentioned, and reads back as the ids. */
  lemma MentionsTextReadsBack(ids: seq<int>)
    ensures MentionsText(ids).None? <==> ids == []
    ensures MentionsText(ids).Some? ==> Backend.ParseIdList(MentionsText(ids).value) == Some(ids)
  {
    if ids != [] {
      Backend.ParseIdListOfJoin(ids);
    }
  }

  /** The record `harvest` builds for message `m` of channel `channel`. */
  function RecordOf(m: HistoryMessage, channel: int, entries: seq<AliasEntry>): HarvestRecord {
    HarvestRecord(ResolvedAuthor(entries, m.author), m.bot, m.embeds > 0, channel, m.createdAt,
                  m.attachments, MentionsText(m.mentions), m.reference, m.content, m.id)
  }

  /** The messages of a history whose author is not ignored, in history order. */
  function Kept(h: seq<HistoryMessage>, userIgnores: set<int>): seq<HistoryMessage> {
    if h == [] then []
    else
      var last := h[|h| - 1];
      Kept(h[..|h| - 1], userIgnores) + (if last.author in userIgnores then [] else [last])
  }

  /** A message is kept exactly when it is in the history and its author is not ignored. */
  lemma {:induction false} KeptMeaning(h: seq<HistoryMessage>, userIgnores: set<int>)
    ensures |Kept(h, userIgnores)| <= |h|
    ensures forall m :: m in Kept(h, userIgnores) <==> m in h && m.author !in userIgnores
  {
    if h != [] {
      var init, last := h[..|h| - 1], h[|h| - 1];
      KeptMeaning(init, userIgnores);
      assert h == init + [last];
    }
  }

  /** The records one channel contributes: one per kept message, in order. */
  function ChannelRecords(h: seq<HistoryMessage>, channel: int, userIgnores: set<int>, entries: seq<AliasEntry>)
    : seq<HarvestRecord>
  {
    var kept := Kept(h, userIgnores);
    seq(|kept|, k requires 0 <= k < |kept| => RecordOf(kept[k], channel, entries))
  }

  /** Every record of a channel carries that channel's id. */
  lemma ChannelRecordsName(h: seq<HistoryMessage>, channel: int, userIgnores: set<int>, entries: seq<AliasEntry>)
    ensures forall k :: 0 <= k < |ChannelRecords(h, channel, userIgnores, entries)| ==>
      ChannelRecords(h, channel, userIgnores, entries)[k].channelId == channel
  {
  }

  lemma ChannelRecordsStep(h: seq<HistoryMessage>, j: nat, channel: int, userIgnores: set<int>, entries: seq<AliasEntry>)
    requires j < |h|
    ensures ChannelRecords(h[..j + 1], channel, userIgnores, entries)
            == ChannelRecords(h[..j], channel, userIgnores, entries)
               + (if h[j].author in userIgnores then [] else [RecordOf(h[j], channel, entries)])
  {
    assert h[..j + 1][..j] == h[..j];
  }

  /** The records of the first `n` channels of `all`, skipping those in `ignored`. */
  function HarvestRecords(all: seq<Channel>, n: nat, ignored: set<int>, userIgnores: set<int>, entries: seq<AliasEntry>)
    : seq<HarvestRecord>
    requires n <= |all|
  {
    if n == 0 then []
    else
      var ch := all[n - 1];
      HarvestRecords(all, n - 1, ignored, userIgnores, entries)
      + (if ch.id in ignored then [] else ChannelRecords(ch.history, ch.id, userIgnores, entries))
  }

  /** No record comes from an ignored channel. */
  lemma {:induction false} IgnoredChannelsContributeNothing(all: seq<Channel>, n: nat, ignored: set<int>,
                                                           userIgnores: set<int>, entries: seq<AliasEntry>)
    requires n <= |all|
    ensures forall k :: 0 <= k < |HarvestRecords(all, n, ignored, userIgnores, entries)| ==>
      HarvestRecords(all, n, ignored, userIgnores, entries)[k].channelId !in ignored
  {
    if n > 0 {
      var prev := HarvestRecords(all, n - 1, ignored, userIgnores, entries);
      IgnoredChannelsContributeNothing(all, n - 1, ignored, userIgnores, entries);
      var ch := all[n - 1];
      if ch.id !in ignored {
        var last := ChannelRecords(ch.history, ch.id, userIgnores, entries);
        ChannelRecordsName(ch.history, ch.id, userIgnores, entries);
        var r := HarvestRecords(all, n, ignored, userIgnores, entries);
        assert r == prev + last;
        forall k | 0 <= k < |r|
          ensures r[k].channelId !in ignored
        {
          if k >= |prev| {
            assert r[k] == last[k - |prev|];
          }
        }
      }
    }
  }

  // ---------------------------------------------------------------------------
  // Progress notices
  // ---------------------------------------------------------------------------

  /** `channels.index(channel)`: the first position of a channel with that id, or `|all|`. */
  function FirstIndexOfId(all: seq<Channel>, id: int): (k: nat)
    ensures k <= |all|
    ensures forall j :: 0 <= j < k ==> all[j].id != id
    ensures k < |all| ==> all[k].id == id
  {
    if all == [] then 0
    else if all[0].id == id then 0
    else
      var k := 1 + FirstIndexOfId(all[1..], id);
      assert forall j :: 1 <= j < k ==> all[j] == all[1..][j - 1];
      k
  }

  /** The progress notices for the first `n` channels: one per channel not in `ignored`. */
  function HarvestNotices(all: seq<Channel>, n: nat, ignored: set<int>): seq<Notice>
    requires n <= |all|
  {
    if n == 0 then []
    else
      var ch := all[n - 1];
      HarvestNotices(all, n - 1, ignored)
      + (if ch.id in ignored then [] else [Harvested(FirstIndexOfId(all, ch.id) + 1, |all|, ch.id)])
  }

  /** Each notice names a harvested channel and a position between 1 and the channel count. */
  lemma {:induction false} NoticesInRange(all: seq<Channel>, n: nat, ignored: set<int>)
    requires n <= |all|
    ensures |HarvestNotices(all, n, ignored)| <= n
    ensures forall x :: x in HarvestNotices(all, n, ignored) ==>
      x.Harvested? && x.channel !in ignored && 1 <= x.position <= n && x.total == |all|
  {
    if n > 0 {
      NoticesInRange(all, n - 1, ignored);
    }
  }

  lemma NoticesStep(all: seq<Channel>, i: nat, ignored: set<int>)
    requires i < |all|
    ensures HarvestNotices(all, i + 1, ignored)
            == HarvestNotices(all, i, ignored)
               + (if all[i].id in ignored then [] else [Harvested(FirstIndexOfId(all, all[i].id) + 1, |all|, all[i].id)])
  {
  }

  lemma RecordsStep(all: seq<Channel>, i: nat, ignored: set<int>, userIgnores: set<int>, entries: seq<AliasEntry>)
    requires i < |all|
    ensures HarvestRecords(all, i + 1, ignored, userIgnores, entries)
            == HarvestRecords(all, i, ignored, userIgnores, entries)
               + (if all[i].id in ignored then [] else ChannelRecords(all[i].history, all[i].id, userIgnores, entries))
  {
  }

  /** With distinct channel ids and nothing ignored, the notices count 1, 2, ... in order. */
  lemma {:induction false} NoticesCountEveryChannel(all: seq<Channel>, n: nat, ignored: set<int>)
    requires n <= |all|
    requires forall i, j :: 0 <= i < j < |all| ==> all[i].id != all[j].id
    requires forall j :: 0 <= j < n ==> all[j].id !in ignored
    ensures |HarvestNotices(all, n, ignored)| == n
    ensures forall k :: 0 <= k < n ==> HarvestNotices(all, n, ignored)[k] == Harvested(k + 1, |all|, all[k].id)
  {
    if n > 0 {
      NoticesCountEveryChannel(all, n - 1, ignored);
      assert FirstIndexOfId(all, all[n - 1].id) == n - 1;
    }
  }

  /** Positions that strictly increase along the sequence. */
  predicate AscendingPositions(notices: seq<Notice>) {
    forall i, j :: 0 <= i < j < |notices| ==>
      notices[i].Harvested? && notices[j].Harvested? && notices[i].position < notices[j].position
  }

  /** With distinct ids, `channels.index(channel)` of the channel at position `i` is `i`. */
  lemma IndexOfDistinct(all: seq<Channel>, i: nat)
    requires i < |all|
    requires forall i, j :: 0 <= i < j < |all| ==> all[i].id != all[j].id
    ensures FirstIndexOfId(all, all[i].id) == i
  {
  }

  /** Whether `x` is the notice of some channel among the first `n` not ignored, numbered by its position. */
  predicate PositionNotice(all: seq<Channel>, n: nat, ignored: set<int>, x: Notice)
    requires n <= |all|
  {
    exists k :: 0 <= k < n && all[k].id !in ignored && x == Harvested(k + 1, |all|, all[k].id)
  }

  lemma PositionNoticeStep(all: seq<Channel>, n: nat, ignored: set<int>, x: Notice)
    requires 0 < n <= |all|
    ensures PositionNotice(all, n, ignored, x) <==>
      PositionNotice(all, n - 1, ignored, x) || (all[n - 1].id !in ignored && x == Harvested(n, |all|, all[n - 1].id))
  {
    if all[n - 1].id !in ignored && x == Harvested(n, |all|, all[n - 1].id) {
      assert x == Harvested(n - 1 + 1, |all|, all[n - 1].id);
    }
  }

  /**
   * With distinct channel ids, the notices are exactly one per channel not ignored, each
   * numbered by the channel's own position: an ignored channel's number is skipped, not reused.
   */
  lemma {:induction false} NoticesNumberedByPosition(all: seq<Channel>, n: nat, ignored: set<int>)
    requires n <= |all|
    requires forall i, j :: 0 <= i < j < |all| ==> all[i].id != all[j].id
    ensures forall x :: x in HarvestNotices(all, n, ignored) <==> PositionNotice(all, n, ignored, x)
  {
    if n > 0 {
      var prev := HarvestNotices(all, n - 1, ignored);
      NoticesNumberedByPosition(all, n - 1, ignored);
      NoticesStep(all, n - 1, ignored);
      IndexOfDistinct(all, n - 1);
      var last := Harvested(n, |all|, all[n - 1].id);
      var notices := if all[n - 1].id in ignored then prev else prev + [last];
      assert HarvestNotices(all, n, ignored) == notices;
      forall x
        ensures x in notices <==> PositionNotice(all, n, ignored, x)
      {
        PositionNoticeStep(all, n, ignored, x);
      }
    }
  }

  /** The notices come in channel order: their numbers strictly increase. */
  lemma {:induction false} NoticesInChannelOrder(all: seq<Channel>, n: nat, ignored: set<int>)
    requires n <= |all|
    requires forall i, j :: 0 <= i < j < |all| ==> all[i].id != all[j].id
    ensures AscendingPositions(HarvestNotices(all, n, ignored))
  {
    if n > 0 {
      var prev := HarvestNotices(all, n - 1, ignored);
      NoticesInChannelOrder(all, n - 1, ignored);
      NoticesStep(all, n - 1, ignored);
      IndexOfDistinct(all, n - 1);
      var last := Harvested(n, |all|, all[n - 1].id);
      var notices := if all[n - 1].id in ignored then prev else prev + [last];
      assert HarvestNotices(all, n, ignored) == notices;
      if all[n - 1].id !in ignored {
        NoticesInRange(all, n - 1, ignored);
        AscendingAppend(prev, last);
      }
    }
  }

  lemma AscendingAppend(notices: seq<Notice>, x: Notice)
    requires AscendingPositions(notices)
    requires x.Harvested?
    requires forall y :: y in notices ==> y.Harvested? && y.position < x.position
    ensures AscendingPositions(notices + [x])
  {
    var longer := notices + [x];
    forall i, j | 0 <= i < j < |longer|
      ensures longer[i].Harvested? && longer[j].Harvested? && longer[i].position < longer[j].position
    {
      assert longer[i] == notices[i] && notices[i] in notices;
      if j < |notices| {
        assert longer[j] == notices[j];
      }
    }
  }

  /** An ignored channel still counts towards the numbering, so the next number is skipped. */
  lemma IgnoredChannelSkipsNumber(a: Channel, b: Channel)
    requires a.id != b.id
    ensures HarvestNotices([a, b], 2, {a.id}) == [Harvested(2, 2, b.id)]
  {
    var all := [a, b];
    assert HarvestNotices(all, 1, {a.id}) == HarvestNotices(all, 0, {a.id}) == [];
    assert FirstIndexOfId(all, b.id) == 1;
  }

  // ---------------------------------------------------------------------------
  // `harvest`
  // ---------------------------------------------------------------------------

  /** The inner loop of `harvest`: one channel's history, in the order `history` yields it. */
  method HarvestChannel(channel: Channel, userIgnores: set<int>, aliasedUsers: seq<AliasEntry>, aliases: set<int>)
    returns (records: seq<HarvestRecord>)
    requires aliases == AllAliases(aliasedUsers)
    ensures records == ChannelRecords(channel.history, channel.id, userIgnores, aliasedUsers)
  {
    records := [];
    for j := 0 to |channel.history|
      invariant records == ChannelRecords(channel.history[..j], channel.id, userIgnores, aliasedUsers)
    {
      ChannelRecordsStep(channel.history, j, channel.id, userIgnores, aliasedUsers);
      var message := channel.history[j];
      if message.author in userIgnores {
        continue;
      }
      var author := ResolveAuthor(aliasedUsers, aliases, message.author);
      var mentions := if message.mentions != [] then Some(Strings.Join(Backend.IdStrings(message.mentions), ",")) else None;
      var msg := HarvestRecord(author, message.bot, message.embeds > 0, channel.id, message.createdAt,
                               message.attachments, mentions, message.reference, message.content, message.id);
      records := records + [msg];
    }
    assert channel.history[..|channel.history|] == channel.history;
  }

  /** The loop of `harvest` over the channels, with the guild's channel-ignore set known. */
  method HarvestChannels(channels: seq<Channel>, ignored: set<int>, userIgnores: set<int>, aliasedUsers: seq<AliasEntry>)
    returns (records: seq<HarvestRecord>, notices: seq<Notice>)
    ensures records == HarvestRecords(channels, |channels|, ignored, userIgnores, aliasedUsers)
    ensures notices == HarvestNotices(channels, |channels|, ignored)
  {
    records := [];
    notices := [];
    var aliases := AllAliases(aliasedUsers);
    for i := 0 to |channels|
      invariant records == HarvestRecords(channels, i, ignored, userIgnores, aliasedUsers)
      invariant notices == HarvestNotices(channels, i, ignored)
    {
      var channel := channels[i];
      NoticesStep(channels, i, ignored);
      RecordsStep(channels, i, ignored, userIgnores, aliasedUsers);
      if channel.id !in ignored {
        var harvested := HarvestChannel(channel, userIgnores, aliasedUsers, aliases);
        records := records + harvested;
        notices := notices + [Harvested(FirstIndexOfId(channels, channel.id) + 1, |channels|, channel.id)];
      }
    }
  }

  /**
   * `harvest` over the guild's text channels: `records` are the records handed to
   * `add_message`, in order, and `notices` the messages sent to the command's channel.
   * A guild missing from `channelIgnores` raises on the first channel, before anything
   * is harvested; with no channels the lookup never happens.
   */
  method Harvest(guild: int, channels: seq<Channel>, channelIgnores: map<int, set<int>>,
                 userIgnores: set<int>, aliasedUsers: seq<AliasEntry>)
    returns (records: seq<HarvestRecord>, notices: seq<Notice>, r: Outcome<HarvestError>)
    ensures guild !in channelIgnores && |channels| > 0 ==>
      r == Fail(MissingGuild) && records == [] && notices == []
    ensures guild in channelIgnores ==>
      r == Pass
      && records == HarvestRecords(channels, |channels|, channelIgnores[guild], userIgnores, aliasedUsers)
      && notices == HarvestNotices(channels, |channels|, channelIgnores[guild]) + [Complete]
    ensures |channels| == 0 ==> r == Pass && records == [] && notices == [Complete]
  {
    if |channels| > 0 && guild !in channelIgnores {
      return [], [], Fail(MissingGuild);
    }
    var ignored: set<int> := if guild in channelIgnores then channelIgnores[guild] else {};
    records, notices := HarvestChannels(channels, ignored, userIgnores, aliasedUsers);
    notices := notices + [Complete];
    r := Pass;
  }
}

=== FILE: backend.dfy ===
/**
 * The bot's shared start-up decisions and helpers: the owner id lists read from the
 * configuration, the logger's level, the administrator check and the confirm/cancel view.
 */
module Backend {
  import opened Wrappers
  import opened Strings

  // ---------------------------------------------------------------------------
  // `owner_ids` and `owner_guilds`
  // ---------------------------------------------------------------------------

  /**
   * `[parse(i) for i in parts]` where `parse` raises on bad input (here None): None as soon as
   * one part fails.
   */
  function ParseAll(parse: string -> Option<int>, parts: seq<string>): (r: Option<seq<int>>)
    ensures r.Some? <==> forall i :: 0 <= i < |parts| ==> parse(parts[i]).Some?
    ensures r.Some? ==> |r.value| == |parts| && forall i :: 0 <= i < |parts| ==> parse(parts[i]) == Some(r.value[i])
  {
    if parts == [] then Some([])
    else
      var tail := parts[1..];
      assert forall i :: 1 <= i < |parts| ==> parts[i] == tail[i - 1];
      match parse(parts[0])
      case None => None
      case Some(v) =>
        match ParseAll(parse, tail)
        case None => None
        case Some(vs) => Some([v] + vs)
  }

  /**
   * A comma-separated id list from the configuration, as `owner_ids` and `owner_guilds`
   * are read; None where the start-up code logs the error and exits.
   */
  function ParseIdList(s: string): Option<seq<int>> {
    ParseAll(ParseInt, Split(s, ','))
  }

  /** `str(n)` of every id. */
  function IdStrings(ids: seq<int>): (parts: seq<string>)
    ensures |parts| == |ids|
    ensures forall i :: 0 <= i < |ids| ==> parts[i] == IntToString(ids[i])
  {
    if ids == [] then [] else [IntToString(ids[0])] + IdStrings(ids[1..])
  }

  /** Each `str(n)` reads back as `n`. */
  lemma {:induction false} ParseAllOfIdStrings(ids: seq<int>)
    ensures ParseAll(ParseInt, IdStrings(ids)) == Some(ids)
  {
    if ids != [] {
      var parts := IdStrings(ids);
      ParseAllOfIdStrings(ids[1..]);
      ParseIntOfIntToString(ids[0]);
      assert parts[1..] == IdStrings(ids[1..]);
      assert ParseAll(ParseInt, parts) == Some([ids[0]] + ids[1..]);
      assert [ids[0]] + ids[1..] == ids;
    }
  }

  /** Writing a non-empty id list as `",".join(map(str, ids))` and reading it back gives the list. */
  lemma ParseIdListOfJoin(ids: seq<int>)
    requires |ids| >= 1
    ensures ParseIdList(Join(IdStrings(ids), ",")) == Some(ids)
  {
    var parts := IdStrings(ids);
    SplitJoin(parts, ',');
    ParseAllOfIdStrings(ids);
  }

  /** An empty setting is one empty part, which `int` refuses. */
  lemma ParseIdListOfEmpty()
    ensures ParseIdList("") == None
  {
    assert Strip("") == "";
  }

  // ---------------------------------------------------------------------------
  // The logger's level
  // ---------------------------------------------------------------------------

  const LevelNames: seq<string> := ["DEBUG", "INFO", "WARNING", "ERROR", "CRITICAL"]

  /** The level set on the logger, and the name a warning reports when the setting was not one. */
  datatype LevelChoice = LevelChoice(level: string, invalid: Option<string>)

  /** `log_level.upper().strip()` when that is a level name; INFO with a warning otherwise. */
  function SelectLevel(configured: string): (c: LevelChoice)
    ensures c.level in LevelNames
    ensures c.invalid.None? <==> Strip(Upper(configured)) in LevelNames
    ensures c.invalid.None? ==> c.level == Strip(Upper(configured))
    ensures c.invalid.Some? ==> c.level == "INFO" && c.invalid.value == Strip(Upper(configured))
  {
    var name := Strip(Upper(configured));
    if name in LevelNames then LevelChoice(name, None) else LevelChoice("INFO", Some(name))
  }

  /** A string of capital letters is its own upper case and has no blanks to strip. */
  lemma {:induction false} CapitalsAreNormal(s: string)
    requires forall i :: 0 <= i < |s| ==> 'A' <= s[i] <= 'Z'
    ensures Strip(Upper(s)) == s
  {
    assert Upper(s) == s;
    StripUnpadded(s);
  }

  /** The level names are written in capitals. */
  lemma LevelNamesAreCapitals(name: string)
    requires name in LevelNames
    ensures forall i :: 0 <= i < |name| ==> 'A' <= name[i] <= 'Z'
  {
  }

  /** Selecting again from a selected level keeps it, with no warning. */
  lemma SelectLevelIdempotent(configured: string)
    ensures SelectLevel(SelectLevel(configured).level) == LevelChoice(SelectLevel(configured).level, None)
  {
    var level := SelectLevel(configured).level;
    LevelNamesAreCapitals(level);
    CapitalsAreNormal(level);
    assert Strip(Upper(level)) == level;
  }

  // ---------------------------------------------------------------------------
  // `is_admin`
  // ---------------------------------------------------------------------------

  datatype Guild = Guild(ownerId: int)
  datatype User = User(id: int, administrator: bool)

  /**
   * `is_admin(interaction)`: never outside a guild; inside one, for a bot owner, the guild's
   * owner, or a member with the administrator permission.
   */
  function IsAdmin(guild: Option<Guild>, user: User, ownerIds: seq<int>): (r: bool)
    ensures guild.None? ==> !r
    ensures guild.Some? ==> (r <==> user.id in ownerIds || guild.value.ownerId == user.id || user.administrator)
  {
    if guild.None? then false
    else if user.id in ownerIds then true
    else if guild.value.ownerId == user.id then true
    else if user.administrator then true
    else false
  }

  // ---------------------------------------------------------------------------
  // `ConfirmButton`
  // ---------------------------------------------------------------------------

  /** One button of the view. */
  class Button {
    const caption: string
    var disabled: bool

    constructor (caption: string)
      ensures this.caption == caption && !disabled
    {
      this.caption := caption;
      disabled := false;
    }
  }

  /** What a click sends back to Discord. */
  datatype Reply = NotForYou | ShowView

  /**
   * The confirmation view: the author's answer (None until given), whether the view has
   * stopped listening, and its two buttons.
   */
  class ConfirmButton {
    var value: Option<bool>
    var stopped: bool
    const author: int
    const children: seq<Button>

    /**
     * Until the author answers nothing is disabled; once they answer, every button is.
     * A view may stop without an answer: that is the timeout, after which both buttons
     * stay enabled and the answer stays None.
     */
    ghost predicate Consistent()
      reads this, children
    {
      |children| == 2
      && (value.None? ==> forall i :: 0 <= i < |children| ==> !children[i].disabled)
      && (value.Some? ==> forall i :: 0 <= i < |children| ==> children[i].disabled)
    }

    constructor (author: int)
      ensures Consistent()
      ensures value.None? && !stopped && this.author == author
      ensures |children| == 2 && children[0].caption == "Confirm" && children[1].caption == "Cancel"
      ensures fresh(children[0]) && fresh(children[1])
    {
      this.author := author;
      value := None;
      stopped := false;
      var confirm := new Button("Confirm");
      var cancel := new Button("Cancel");
      children := [confirm, cancel];
    }

    /** `for child in self.children: child.disabled = True` */
    method DisableAll()
      modifies children
      ensures forall i :: 0 <= i < |children| ==> children[i].disabled
    {
      for k := 0 to |children|
        invariant forall i :: 0 <= i < k ==> children[i].disabled
      {
        children[k].disabled := true;
      }
    }

    /**
     * A click on Confirm by `user`; `delivered` says whether Discord accepted the reply,
     * which must happen before the view stops.
     */
    method ConfirmCallback(user: int, delivered: bool) returns (reply: Reply)
      requires Consistent()
      modifies this, children
      ensures Consistent()
      ensures user != author ==> reply == NotForYou && value == old(value) && stopped == old(stopped)
      ensures user != author ==> forall i :: 0 <= i < |children| ==> children[i].disabled == old(children[i].disabled)
      ensures user == author ==> reply == ShowView && value == Some(true) && stopped == (old(stopped) || delivered)
    {
      if user != author {
        return NotForYou;
      }
      value := Some(true);
      DisableAll();
      reply := ShowView;
      if delivered {
        stopped := true;
      }
    }

    /**
     * The view's timeout (the default of `View.__init__`, 180 seconds) running out while it
     * still listens: the view stops, and the answer and the buttons stay as they were.
     */
    method TimeOut()
      requires Consistent() && !stopped
      modifies this
      ensures Consistent()
      ensures stopped && value == old(value)
    {
      stopped := true;
    }

    /** A click on Cancel by `user`: the same transitions, with the answer False. */
    method CancelCallback(user: int, delivered: bool) returns (reply: Reply)
      requires Consistent()
      modifies this, children
      ensures Consistent()
      ensures user != author ==> reply == NotForYou && value == old(value) && stopped == old(stopped)
      ensures user != author ==> forall i :: 0 <= i < |children| ==> children[i].disabled == old(children[i].disabled)
      ensures user == author ==> reply == ShowView && value == Some(false) && stopped == (old(stopped) || delivered)
    {
      if user != author {
        return NotForYou;
      }
      value := Some(false);
      DisableAll();
      reply := ShowView;
      if delivered {
        stopped := true;
      }
    }
  }
}

=== FILE: calendar.dfy ===
/**
 * The proleptic Gregorian calendar of Python's `datetime`, as far as the bot uses it:
 * valid date-times (years 1 to 9999), `date.toordinal()`, stepping back by whole days
 * (`dt - timedelta(days=n)`, which raises OverflowError below year 1), and the
 * microsecond count of a wall-clock time, from which `timestamp()` is derived.
 */
module Calendar {
  import opened Wrappers

  const MicrosPerSecond: int := 1_000_000
  const MicrosPerHour: int := 3_600_000_000
  const MicrosPerDay: int := 86_400_000_000

  /** A wall-clock date and time, as the fields of a `datetime`. */
  datatype DateTime = DateTime(year: int, month: int, day: int, hour: int, minute: int, second: int, microsecond: int)

  predicate IsLeap(y: int) {
    y % 4 == 0 && (y % 100 != 0 || y % 400 == 0)
  }

  function DaysInYear(y: int): int {
    if IsLeap(y) then 366 else 365
  }

  function DaysInMonth(y: int, m: int): (n: int)
    requires 1 <= m <= 12
    ensures 28 <= n <= 31
  {
    if m == 2 then (if IsLeap(y) then 29 else 28)
    else if m == 4 || m == 6 || m == 9 || m == 11 then 30
    else 31
  }

  /** The ranges `datetime` enforces for each field. */
  predicate Valid(d: DateTime) {
    1 <= d.year <= 9999 && 1 <= d.month <= 12 && 1 <= d.day <= DaysInMonth(d.year, d.month)
    && 0 <= d.hour < 24 && 0 <= d.minute < 60 && 0 <= d.second < 60 && 0 <= d.microsecond < MicrosPerSecond
  }

  /** Days in the years before `y`, counting from year 1. */
  function DaysBeforeYear(y: int): (n: int)
    requires y >= 1
    ensures n >= 365 * (y - 1)
  {
    var k := y - 1;
    365 * k + k / 4 - k / 100 + k / 400
  }

  /** Days in the months of year `y` before month `m`. */
  function DaysBeforeMonth(y: int, m: int): (n: int)
    requires 1 <= m <= 12
    ensures n >= 28 * (m - 1)
  {
    if m == 1 then 0 else DaysBeforeMonth(y, m - 1) + DaysInMonth(y, m - 1)
  }

  /** `date.toordinal()`: 1 January of year 1 is day 1. */
  function Ordinal(d: DateTime): (n: int)
    requires Valid(d)
    ensures n >= 1
    ensures n == 1 <==> d.year == 1 && d.month == 1 && d.day == 1
  {
    DaysBeforeYear(d.year) + DaysBeforeMonth(d.year, d.month) + d.day
  }

  /** Microseconds since midnight. */
  function TimeOfDay(d: DateTime): (t: int)
    requires Valid(d)
    ensures 0 <= t < MicrosPerDay
  {
    ((d.hour * 60 + d.minute) * 60 + d.second) * MicrosPerSecond + d.microsecond
  }

  /** Microseconds from 0001-01-01 00:00 to the wall-clock time `d`. */
  function LocalMicros(d: DateTime): int
    requires Valid(d)
  {
    (Ordinal(d) - 1) * MicrosPerDay + TimeOfDay(d)
  }

  /** `date(1970, 1, 1).toordinal()`. */
  const UnixEpochOrdinal: int := 719163

  lemma UnixEpochOrdinalIsOrdinal()
    ensures Ordinal(DateTime(1970, 1, 1, 0, 0, 0, 0)) == UnixEpochOrdinal
  {
  }

  /**
   * `d.timestamp()` of an aware date-time whose UTC offset is `offsetHours`, in
   * microseconds since the Unix epoch.
   */
  function EpochMicros(d: DateTime, offsetHours: int): int
    requires Valid(d)
  {
    LocalMicros(d) - (UnixEpochOrdinal - 1) * MicrosPerDay - offsetHours * MicrosPerHour
  }

  /** The first seven ordinals are the first seven days of January of year 1. */
  lemma FirstWeek(d: DateTime)
    requires Valid(d)
    ensures Ordinal(d) <= 7 <==> d.year == 1 && d.month == 1 && d.day <= 7
  {
    if d.year > 1 {
      assert DaysBeforeYear(d.year) >= 365;
    } else if d.month > 1 {
      assert DaysBeforeMonth(d.year, d.month) >= 28;
    } else {
      assert Ordinal(d) == d.day;
    }
  }

  /**
   * Midnight of a day earlier in the same month, or of 1 January of the same year, is no
   * later than `d`.
   */
  lemma MidnightNotLater(m: DateTime, d: DateTime)
    requires Valid(m) && Valid(d) && m.year == d.year
    requires m.hour == 0 && m.minute == 0 && m.second == 0 && m.microsecond == 0
    requires (m.month == d.month && m.day <= d.day) || (m.month == 1 && m.day == 1)
    ensures LocalMicros(m) <= LocalMicros(d)
  {
    assert TimeOfDay(m) == 0;
    assert Ordinal(m) <= Ordinal(d);
  }

  /** One more than `k` crosses a multiple of 4, 100 or 400 exactly when it lands on one. */
  lemma DivSteps(k: int)
    requires k >= 0
    ensures (k + 1) / 4 == k / 4 + (if (k + 1) % 4 == 0 then 1 else 0)
    ensures (k + 1) / 100 == k / 100 + (if (k + 1) % 100 == 0 then 1 else 0)
    ensures (k + 1) / 400 == k / 400 + (if (k + 1) % 400 == 0 then 1 else 0)
  {
  }

  /** A multiple of 400 is a multiple of 100. */
  lemma Multiple400(y: int)
    requires y % 400 == 0
    ensures y % 100 == 0
  {
    var q := y / 400;
    assert y == 100 * (4 * q);
  }

  /** A multiple of 100 is a multiple of 4. */
  lemma Multiple100(y: int)
    requires y % 100 == 0
    ensures y % 4 == 0
  {
    var q := y / 100;
    assert y == 4 * (25 * q);
  }

  lemma {:induction false} DaysBeforeNextYear(y: int)
    requires y >= 1
    ensures DaysBeforeYear(y + 1) == DaysBeforeYear(y) + DaysInYear(y)
  {
    var k := y - 1;
    DivSteps(k);
    if y % 400 == 0 {
      Multiple400(y);
    }
    if y % 100 == 0 {
      Multiple100(y);
    }
    assert DaysBeforeYear(y + 1) == 365 * y + y / 4 - y / 100 + y / 400;
    assert DaysBeforeYear(y) == 365 * k + k / 4 - k / 100 + k / 400;
  }

  lemma DaysBeforeDecember(y: int)
    ensures DaysBeforeMonth(y, 12) + 31 == DaysInYear(y)
  {
    var leap := if IsLeap(y) then 1 else 0;
    assert DaysBeforeMonth(y, 2) == 31;
    assert DaysBeforeMonth(y, 3) == 59 + leap;
    assert DaysBeforeMonth(y, 4) == 90 + leap;
    assert DaysBeforeMonth(y, 5) == 120 + leap;
    assert DaysBeforeMonth(y, 6) == 151 + leap;
    assert DaysBeforeMonth(y, 7) == 181 + leap;
    assert DaysBeforeMonth(y, 8) == 212 + leap;
    assert DaysBeforeMonth(y, 9) == 243 + leap;
    assert DaysBeforeMonth(y, 10) == 273 + leap;
    assert DaysBeforeMonth(y, 11) == 304 + leap;
  }

  /** The day before `d` at the same time of day; None for 1 January of year 1. */
  function PrevDay(d: DateTime): (r: Option<DateTime>)
    requires Valid(d)
    ensures r.None? <==> d.year == 1 && d.month == 1 && d.day == 1
    ensures r.Some? ==> Valid(r.value) && Ordinal(r.value) == Ordinal(d) - 1
    ensures r.Some? ==> TimeOfDay(r.value) == TimeOfDay(d)
  {
    if d.day > 1 then
      var p := d.(day := d.day - 1);
      SameClock(p, d);
      Some(p)
    else if d.month > 1 then
      var p := d.(month := d.month - 1, day := DaysInMonth(d.year, d.month - 1));
      SameClock(p, d);
      Some(p)
    else if d.year > 1 then
      var p := d.(year := d.year - 1, month := 12, day := 31);
      DaysBeforeNextYear(d.year - 1);
      DaysBeforeDecember(d.year - 1);
      SameClock(p, d);
      Some(p)
    else None
  }

  /** Two valid dates with the same hour, minute, second and microsecond share their time of day. */
  lemma SameClock(a: DateTime, b: DateTime)
    requires Valid(a) && Valid(b)
    requires a.hour == b.hour && a.minute == b.minute && a.second == b.second && a.microsecond == b.microsecond
    ensures TimeOfDay(a) == TimeOfDay(b)
  {
  }

  /**
   * `d - timedelta(days=n)`: None where Python raises OverflowError because the
   * result would fall before year 1.
   */
  function MinusDays(d: DateTime, n: nat): (r: Option<DateTime>)
    requires Valid(d)
    ensures r.None? <==> Ordinal(d) <= n
    ensures r.Some? ==> Valid(r.value) && LocalMicros(r.value) == LocalMicros(d) - n * MicrosPerDay
    ensures r.Some? ==> TimeOfDay(r.value) == TimeOfDay(d)
    decreases n
  {
    if n == 0 then Some(d)
    else
      match PrevDay(d)
      case None => None
      case Some(p) => MinusDays(p, n - 1)
  }
}

=== FILE: db.dfy ===
/**
 * The bot's database layer: one message table per guild, keyed by `message_id`, and the
 * shared `config` table of (key, data1, data2, data3) rows that holds aliases and
 * timezones. Each SQL statement the layer issues is given its meaning as a function on
 * the table it touches; the `Database` class applies them to its state.
 */
module Db {
  import opened Wrappers
  import Strings
  import SetFacts

  /** One row of a guild table, with the columns `add_guild` creates. */
  datatype Row = Row(
    messageId: int,
    channelId: int,
    authorId: int,
    aliasedAuthorId: Option<int>,  // NULL after an alias is removed
    messageLength: int,
    epoch: int,
    hasEmbed: bool,
    numAttachments: int)

  /** A guild table: its rows by primary key. */
  type Table = map<int, Row>

  /** Every row sits under its own `message_id`. */
  ghost predicate Keyed(t: Table) {
    forall id :: id in t ==> t[id].messageId == id
  }

  /** A row of the `config` table: `_key`, `data1`, `data2`, `data3`. */
  datatype ConfigRow = ConfigRow(key: string, data1: int, data2: Option<int>, data3: Option<int>)

  /** Why a statement raised: no pool yet (`self.con` is None), or no table for the guild. */
  datatype DbError = NotConnected | NoSuchTable(guildId: int)

  // ---------------------------------------------------------------------------
  // The meaning of each statement on a guild table
  // ---------------------------------------------------------------------------

  /** `INSERT IGNORE`: a row whose primary key is taken is dropped. */
  function InsertIgnore(t: Table, r: Row): (t': Table)
    ensures r.messageId in t ==> t' == t
    ensures r.messageId !in t ==> t'.Keys == t.Keys + {r.messageId} && |t'| == |t| + 1
    ensures r.messageId !in t ==> t'[r.messageId] == r
    ensures forall id :: id in t ==> id in t' && t'[id] == t[id]
  {
    if r.messageId in t then t else t[r.messageId := r]
  }

  /** `str(b)` for a Python bool: the text `add_message` sends for `has_embed`. */
  function BoolText(b: bool): string {
    if b then "True" else "False"
  }

  /** The longest prefix of decimal digits. */
  function LeadingDigits(s: string): (d: string)
    ensures Strings.AllDigits(d) && d <= s
    ensures d == s || !Strings.IsDigit(s[|d|])
  {
    if s == [] || !Strings.IsDigit(s[0]) then []
    else [s[0]] + LeadingDigits(s[1..])
  }

  /**
   * What an integer column (`BOOLEAN` is `TINYINT(1)`) keeps of a text value under
   * `INSERT IGNORE`: the value of its leading digits, 0 when there are none, the
   * conversion warning being ignored.
   */
  function StoredInteger(text: string): nat {
    Strings.DigitsValue(LeadingDigits(text))
  }

  /**
   * The row `add_message` stores as written: every value is sent as `str(...)`, and
   * `has_embed` arrives as the text `True` or `False`, which the column keeps as 0.
   */
  function StoredAsWritten(r: Row): (s: Row)
    ensures s.(hasEmbed := r.hasEmbed) == r
    ensures !s.hasEmbed
  {
    r.(hasEmbed := StoredInteger(BoolText(r.hasEmbed)) != 0)
  }

  /** A message with an embed is stored without its flag as written, and with it when the flag is passed as a bool. */
  lemma AddMessageAsWrittenLosesEmbed(t: Table, r: Row)
    requires r.messageId !in t && r.hasEmbed
    ensures InsertIgnore(t, r)[r.messageId].hasEmbed
    ensures !InsertIgnore(t, StoredAsWritten(r))[r.messageId].hasEmbed
  {
  }

  /** `DELETE ... WHERE message_id = id`. */
  function DeleteById(t: Table, id: int): (t': Table)
    ensures t'.Keys == t.Keys - {id}
    ensures |t'| == if id in t then |t| - 1 else |t|
    ensures forall k :: k in t' ==> t'[k] == t[k]
  {
    t - {id}
  }

  /** `UPDATE ... SET message_length, has_embed, num_attachments WHERE message_id = id`. */
  function EditById(t: Table, id: int, length: int, hasEmbed: bool, attachments: int): (t': Table)
    ensures t'.Keys == t.Keys
    ensures forall k :: k in t && k != id ==> t'[k] == t[k]
    ensures id in t ==> t'[id] == t[id].(messageLength := length, hasEmbed := hasEmbed, numAttachments := attachments)
  {
    if id in t then t[id := t[id].(messageLength := length, hasEmbed := hasEmbed, numAttachments := attachments)]
    else t
  }

  /** `UPDATE ... SET aliased_author_id = v WHERE author_id = alias`. */
  function SetAliasWhereAuthor(t: Table, alias: int, v: Option<int>): (t': Table)
    ensures t'.Keys == t.Keys
    ensures forall k :: k in t && t[k].authorId == alias ==> t'[k] == t[k].(aliasedAuthorId := v)
    ensures forall k :: k in t && t[k].authorId != alias ==> t'[k] == t[k]
  {
    map k | k in t :: if t[k].authorId == alias then t[k].(aliasedAuthorId := v) else t[k]
  }

  /** `DELETE ... WHERE channel_id = channel`. */
  function DeleteChannelRows(t: Table, channel: int): (t': Table)
    ensures t'.Keys == set k | k in t && t[k].channelId != channel
    ensures forall k :: k in t' ==> t'[k] == t[k]
  {
    map k | k in t && t[k].channelId != channel :: t[k]
  }

  // ---------------------------------------------------------------------------
  // The meaning of each statement on the config table
  // ---------------------------------------------------------------------------

  /** `DELETE FROM config WHERE` all four columns equal those of `row`. */
  function DeleteConfigRow(cfg: seq<ConfigRow>, row: ConfigRow): (r: seq<ConfigRow>)
    ensures row !in r
    ensures forall x :: x in cfg && x != row ==> x in r
    ensures forall x :: x in r ==> x in cfg
  {
    if cfg == [] then []
    else (if cfg[0] == row then [] else [cfg[0]]) + DeleteConfigRow(cfg[1..], row)
  }

  /** `DELETE FROM config WHERE data1 = guild`, whatever the key. */
  function DeleteConfigOfGuild(cfg: seq<ConfigRow>, guild: int): (r: seq<ConfigRow>)
    ensures forall x :: x in r <==> x in cfg && x.data1 != guild
  {
    if cfg == [] then []
    else (if cfg[0].data1 == guild then [] else [cfg[0]]) + DeleteConfigOfGuild(cfg[1..], guild)
  }

  predicate IsTimezoneRow(row: ConfigRow, guild: int) {
    row.key == "timezone" && row.data1 == guild
  }

  predicate HasTimezoneRow(cfg: seq<ConfigRow>, guild: int) {
    exists i :: 0 <= i < |cfg| && IsTimezoneRow(cfg[i], guild)
  }

  /** `SELECT data2 ... WHERE _key = 'timezone' AND data1 = guild` with `fetchone`: the first match. */
  function LookupTimezone(cfg: seq<ConfigRow>, guild: int): (r: Option<int>)
    ensures !HasTimezoneRow(cfg, guild) ==> r == None
    ensures HasTimezoneRow(cfg, guild) ==>
      exists i :: 0 <= i < |cfg| && IsTimezoneRow(cfg[i], guild) && r == cfg[i].data2
  {
    if cfg == [] then None
    else if IsTimezoneRow(cfg[0], guild) then cfg[0].data2
    else
      assert HasTimezoneRow(cfg, guild) ==> HasTimezoneRow(cfg[1..], guild) by {
        if HasTimezoneRow(cfg, guild) {
          var i :| 0 <= i < |cfg| && IsTimezoneRow(cfg[i], guild);
          assert i != 0;
          assert cfg[1..][i - 1] == cfg[i];
        }
      }
      LookupTimezone(cfg[1..], guild)
  }

  /** The upsert `set_timezone` intends: insert when the guild has no row, else update its rows. */
  function UpsertTimezone(cfg: seq<ConfigRow>, guild: int, tz: int): (r: seq<ConfigRow>)
    ensures |r| == if HasTimezoneRow(cfg, guild) then |cfg| else |cfg| + 1
    ensures HasTimezoneRow(r, guild)
    ensures forall i :: 0 <= i < |r| && IsTimezoneRow(r[i], guild) ==> r[i].data2 == Some(tz)
    ensures forall i :: 0 <= i < |cfg| && !IsTimezoneRow(cfg[i], guild) ==> r[i] == cfg[i]
  {
    if HasTimezoneRow(cfg, guild) then
      var r := seq(|cfg|, i requires 0 <= i < |cfg| =>
        if IsTimezoneRow(cfg[i], guild) then cfg[i].(data2 := Some(tz)) else cfg[i]);
      assert HasTimezoneRow(r, guild) by {
        var i :| 0 <= i < |cfg| && IsTimezoneRow(cfg[i], guild);
        assert IsTimezoneRow(r[i], guild);
      }
      r
    else
      var r := cfg + [ConfigRow("timezone", guild, Some(tz), None)];
      assert IsTimezoneRow(r[|cfg|], guild);
      r
  }

  /** After the upsert, the guild's timezone reads back as the one written. */
  lemma {:induction false} LookupAfterUpsert(cfg: seq<ConfigRow>, guild: int, tz: int)
    ensures LookupTimezone(UpsertTimezone(cfg, guild, tz), guild) == Some(tz)
  {
    var r := UpsertTimezone(cfg, guild, tz);
    var i :| 0 <= i < |r| && IsTimezoneRow(r[i], guild) && LookupTimezone(r, guild) == r[i].data2;
  }

  /** The upsert for one guild leaves every other guild's timezone as it was. */
  lemma {:induction false} LookupOtherAfterUpsert(cfg: seq<ConfigRow>, guild: int, tz: int, other: int)
    requires other != guild
    ensures LookupTimezone(UpsertTimezone(cfg, guild, tz), other) == LookupTimezone(cfg, other)
  {
    var r := UpsertTimezone(cfg, guild, tz);
    if HasTimezoneRow(cfg, guild) {
      LookupPointwise(cfg, r, other);
    } else {
      LookupAppend(cfg, ConfigRow("timezone", guild, Some(tz), None), other);
    }
  }

  lemma {:induction false} LookupPointwise(a: seq<ConfigRow>, b: seq<ConfigRow>, guild: int)
    requires |a| == |b|
    requires forall i :: 0 <= i < |a| ==> IsTimezoneRow(a[i], guild) == IsTimezoneRow(b[i], guild)
    requires forall i :: 0 <= i < |a| && IsTimezoneRow(a[i], guild) ==> a[i] == b[i]
    ensures LookupTimezone(a, guild) == LookupTimezone(b, guild)
  {
    if a != [] && !IsTimezoneRow(a[0], guild) {
      LookupPointwise(a[1..], b[1..], guild);
    }
  }

  /** `SELECT data2 ... WHERE _key = 'timezone' AND data1 = guild`: the result rows, in table order. */
  function TimezoneValues(cfg: seq<ConfigRow>, guild: int): seq<Option<int>> {
    if cfg == [] then []
    else (if IsTimezoneRow(cfg[0], guild) then [cfg[0].data2] else []) + TimezoneValues(cfg[1..], guild)
  }

  /** `get_timezone`'s reading of a `fetchone` result: None for no row, else the row's `res[0]`. */
  function FirstColumn(f: Fetched<Option<int>>): Option<int> {
    match f
    case OneRow(Some(value)) => value
    case _ => None
  }

  /** The lookup is what `execute(..., fetch="one")` returns for the timezone query, read by `get_timezone`. */
  lemma {:induction false} LookupIsFetchOne(cfg: seq<ConfigRow>, guild: int)
    ensures LookupTimezone(cfg, guild) == FirstColumn(Fetch(Some("one"), TimezoneValues(cfg, guild)))
    ensures TimezoneValues(cfg, guild) == [] <==> !HasTimezoneRow(cfg, guild)
  {
    if cfg != [] {
      LookupIsFetchOne(cfg[1..], guild);
      if !IsTimezoneRow(cfg[0], guild) && HasTimezoneRow(cfg, guild) {
        var i :| 0 <= i < |cfg| && IsTimezoneRow(cfg[i], guild);
        assert cfg[1..][i - 1] == cfg[i];
      }
      if HasTimezoneRow(cfg[1..], guild) {
        var i :| 0 <= i < |cfg| - 1 && IsTimezoneRow(cfg[1..][i], guild);
        assert cfg[i + 1] == cfg[1..][i];
      }
    }
  }

  lemma {:induction false} LookupAppend(a: seq<ConfigRow>, x: ConfigRow, guild: int)
    requires !IsTimezoneRow(x, guild)
    ensures LookupTimezone(a + [x], guild) == LookupTimezone(a, guild)
  {
    if a == [] {
      assert LookupTimezone([x][1..], guild) == None;
    } else {
      assert (a + [x])[1..] == a[1..] + [x];
      LookupAppend(a[1..], x, guild);
    }
  }

  // ---------------------------------------------------------------------------
  // Filters of `get_message_count` and `get_character_count`
  // ---------------------------------------------------------------------------

  /** A column a filter condition compares with a placeholder. */
  datatype Column = ChannelColumn | AuthorColumn

  function ColumnName(c: Column): string {
    match c
    case ChannelColumn => "channel_id"
    case AuthorColumn => "author_id"
  }

  /** The condition text for a column: its name compared with one `%s` placeholder. */
  function ColumnCondition(c: Column): string {
    ColumnName(c) + " = %s"
  }

  function ColumnValue(c: Column, row: Row): int {
    match c
    case ChannelColumn => row.channelId
    case AuthorColumn => row.authorId
  }

  /** The rows the optional filters select: `author_id`, not the aliased author, is compared. */
  predicate Matches(row: Row, channel: Option<int>, author: Option<int>) {
    (channel.None? || row.channelId == channel.value) && (author.None? || row.authorId == author.value)
  }

  /** A row satisfies a WHERE clause whose i-th placeholder is bound to the i-th parameter. */
  predicate Satisfies(conditions: seq<Column>, params: seq<int>, row: Row)
    requires |conditions| == |params|
  {
    conditions == [] ||
    (ColumnValue(conditions[0], row) == params[0] && Satisfies(conditions[1..], params[1..], row))
  }

  function Conditions(conditions: seq<Column>): (texts: seq<string>)
    ensures |texts| == |conditions|
    ensures forall i :: 0 <= i < |texts| ==> texts[i] == ColumnCondition(conditions[i])
  {
    if conditions == [] then [] else [ColumnCondition(conditions[0])] + Conditions(conditions[1..])
  }

  /**
   * The clause appended to the query: nothing without conditions, else their AND. It holds
   * one `%s` per condition, the driver's placeholder, and no `?`.
   */
  function WhereClause(conditions: seq<Column>): (clause: string)
    ensures clause == [] <==> conditions == []
    ensures Strings.CountChar(clause, '%') == |conditions|
    ensures '?' !in clause
  {
    if conditions == [] then []
    else
      var joined := Strings.Join(Conditions(conditions), " AND ");
      JoinedConditionsPlaceholders(conditions);
      Strings.CountCharAbsent(" WHERE ", '%');
      Strings.CountCharAppend(" WHERE ", joined, '%');
      " WHERE " + joined
  }

  lemma ColumnNamePlain(c: Column)
    ensures Strings.CountChar(ColumnName(c), '%') == 0 && '?' !in ColumnName(c)
  {
    Strings.CountCharAbsent(ColumnName(c), '%');
  }

  lemma ColumnPlaceholder(c: Column)
    ensures Strings.CountChar(ColumnCondition(c), '%') == 1
    ensures '?' !in ColumnCondition(c)
  {
    ColumnNamePlain(c);
    assert Strings.CountChar(" = %s", '%') == 1;
    Strings.CountCharAppend(ColumnName(c), " = %s", '%');
  }

  lemma {:induction false} JoinedConditionsPlaceholders(conditions: seq<Column>)
    ensures Strings.CountChar(Strings.Join(Conditions(conditions), " AND "), '%') == |conditions|
    ensures '?' !in Strings.Join(Conditions(conditions), " AND ")
  {
    if conditions != [] {
      var texts := Conditions(conditions);
      assert texts[1..] == Conditions(conditions[1..]);
      ColumnPlaceholder(conditions[0]);
      if |conditions| > 1 {
        var rest := Strings.Join(texts[1..], " AND ");
        JoinedConditionsPlaceholders(conditions[1..]);
        assert Strings.Join(texts, " AND ") == texts[0] + " AND " + rest;
        Strings.CountCharAbsent(" AND ", '%');
        Strings.CountCharAppend(texts[0], " AND ", '%');
        Strings.CountCharAppend(texts[0] + " AND ", rest, '%');
      }
    }
  }

  /** `f"{select} FROM `{guild_id}`"`: a statement on the guild's table, before its filter. */
  function FromTable(select: string, guild: int): (q: string)
    requires '%' !in select && '?' !in select
    ensures Strings.CountChar(q, '%') == 0 && '?' !in q
  {
    var table := Strings.IntToString(guild);
    assert '%' !in table && '?' !in table;
    var q := select + " FROM `" + table + "`";
    Strings.CountCharAbsent(q, '%');
    q
  }

  /** The select lists of the two count functions hold no placeholder character. */
  lemma PlainSelects()
    ensures '%' !in "SELECT COUNT(*)" && '?' !in "SELECT COUNT(*)"
    ensures '%' !in "SELECT sum(message_length)" && '?' !in "SELECT sum(message_length)"
  {
  }

  /**
   * The `conditions` and `params` lists both count functions build by appending: one
   * condition per filter given, channel first, and its parameter at the same position. The
   * query gains the WHERE clause, and with it exactly one placeholder per parameter.
   */
  method BuildFilter(base: string, channel: Option<int>, author: Option<int>)
    returns (query: string, conditions: seq<Column>, params: seq<int>)
    ensures query == base + WhereClause(conditions)
    ensures Strings.CountChar(query, '%') == Strings.CountChar(base, '%') + |params|
    ensures '?' in query <==> '?' in base
    ensures |conditions| == |params| <= 2
    ensures conditions == [] <==> channel.None? && author.None?
    ensures forall row :: Satisfies(conditions, params, row) <==> Matches(row, channel, author)
    ensures channel.Some? ==> conditions[0] == ChannelColumn && params[0] == channel.value
  {
    conditions, params := [], [];
    if channel.Some? {
      conditions := conditions + [ChannelColumn];
      params := params + [channel.value];
    }
    if author.Some? {
      conditions := conditions + [AuthorColumn];
      params := params + [author.value];
    }
    var clause := WhereClause(conditions);
    query := base + clause;
    Strings.CountCharAppend(base, clause, '%');
    FilterMeaning(channel, author, conditions, params);
  }

  /** The clause built from the filters given selects exactly the rows matching them. */
  lemma FilterMeaning(channel: Option<int>, author: Option<int>, conditions: seq<Column>, params: seq<int>)
    requires conditions == (if channel.Some? then [ChannelColumn] else []) + (if author.Some? then [AuthorColumn] else [])
    requires params == (if channel.Some? then [channel.value] else []) + (if author.Some? then [author.value] else [])
    ensures |conditions| == |params|
    ensures forall row :: Satisfies(conditions, params, row) <==> Matches(row, channel, author)
  {
    forall row
      ensures Satisfies(conditions, params, row) <==> Matches(row, channel, author)
    {
      if channel.Some? && author.Some? {
        assert conditions == [ChannelColumn, AuthorColumn] && params == [channel.value, author.value];
        SatisfiesPair(ChannelColumn, AuthorColumn, channel.value, author.value, row);
      } else if channel.Some? {
        assert conditions == [ChannelColumn] && params == [channel.value];
        SatisfiesSingle(ChannelColumn, channel.value, row);
      } else if author.Some? {
        assert conditions == [AuthorColumn] && params == [author.value];
        SatisfiesSingle(AuthorColumn, author.value, row);
      }
    }
  }

  lemma SatisfiesSingle(c: Column, v: int, row: Row)
    ensures Satisfies([c], [v], row) <==> ColumnValue(c, row) == v
  {
    assert Satisfies([c][1..], [v][1..], row);
  }

  lemma SatisfiesPair(c: Column, d: Column, v: int, w: int, row: Row)
    ensures Satisfies([c, d], [v, w], row) <==> ColumnValue(c, row) == v && ColumnValue(d, row) == w
  {
    assert [c, d][1..] == [d] && [v, w][1..] == [w];
    SatisfiesSingle(d, w, row);
  }

  /** The ids of the rows, among `ids`, that the filters select. */
  function MatchingIn(t: Table, ids: set<int>, channel: Option<int>, author: Option<int>): set<int> {
    set id | id in ids && id in t && Matches(t[id], channel, author)
  }

  function Matching(t: Table, channel: Option<int>, author: Option<int>): set<int> {
    set id | id in t && Matches(t[id], channel, author)
  }

  /** Taking one more id into account adds it to the selection exactly when its row matches. */
  lemma MatchingInStep(t: Table, done: set<int>, id: int, channel: Option<int>, author: Option<int>)
    requires id in t && id !in done
    ensures MatchingIn(t, done + {id}, channel, author) ==
      MatchingIn(t, done, channel, author) + (if Matches(t[id], channel, author) then {id} else {})
    ensures |MatchingIn(t, done + {id}, channel, author)| ==
      |MatchingIn(t, done, channel, author)| + (if Matches(t[id], channel, author) then 1 else 0)
  {
    var before := MatchingIn(t, done, channel, author);
    var after := MatchingIn(t, done + {id}, channel, author);
    var added: set<int> := if Matches(t[id], channel, author) then {id} else {};
    assert id !in before;
    forall k
      ensures k in after <==> k in before + added
    {
    }
    assert after == before + added;
  }

  /** `SUM(message_length)` over the rows with the given ids. */
  ghost function SumLengths(t: Table, ids: set<int>): int
    requires ids <= t.Keys
    decreases ids
  {
    if ids == {} then 0
    else
      SetFacts.EmptyIfNoMember(ids);
      var id :| id in ids;
      t[id].messageLength + SumLengths(t, ids - {id})
  }

  /** The sum does not depend on which row is taken first. */
  lemma {:induction false} SumLengthsRemove(t: Table, ids: set<int>, x: int)
    requires ids <= t.Keys && x in ids
    ensures SumLengths(t, ids) == t[x].messageLength + SumLengths(t, ids - {x})
    decreases ids
  {
    SetFacts.EmptyIfNoMember(ids);
    var y :| y in ids && SumLengths(t, ids) == t[y].messageLength + SumLengths(t, ids - {y});
    if y != x {
      SumLengthsRemove(t, ids - {y}, x);
      SumLengthsRemove(t, ids - {x}, y);
      assert ids - {y} - {x} == ids - {x} - {y};
    }
  }

  lemma SumLengthsAdd(t: Table, ids: set<int>, x: int)
    requires ids <= t.Keys && x in t && x !in ids
    ensures SumLengths(t, ids + {x}) == SumLengths(t, ids) + t[x].messageLength
  {
    SumLengthsRemove(t, ids + {x}, x);
    assert ids + {x} - {x} == ids;
  }

  /** Rows that agree on the ids summed give the same sum. */
  lemma {:induction false} SumLengthsAgree(t: Table, u: Table, ids: set<int>)
    requires ids <= t.Keys && ids <= u.Keys
    requires forall id :: id in ids ==> t[id].messageLength == u[id].messageLength
    ensures SumLengths(t, ids) == SumLengths(u, ids)
    decreases ids
  {
    if ids != {} {
      SetFacts.EmptyIfNoMember(ids);
      var y :| y in ids && SumLengths(t, ids) == t[y].messageLength + SumLengths(t, ids - {y});
      SumLengthsRemove(u, ids, y);
      SumLengthsAgree(t, u, ids - {y});
    }
  }

  // ---------------------------------------------------------------------------
  // Facts about how the statements change what the count functions report
  // ---------------------------------------------------------------------------

  /** With no filter, `COUNT(*)` is the number of rows. */
  lemma CountWithoutFilters(t: Table)
    ensures |Matching(t, None, None)| == |t|
  {
    forall id | id in t ensures id in Matching(t, None, None) {
      assert Matches(t[id], None, None);
    }
    assert Matching(t, None, None) == t.Keys;
  }

  /** A new row joins the selection of every filter it matches, and no other. */
  lemma MatchingAfterAdd(t: Table, r: Row, channel: Option<int>, author: Option<int>)
    requires r.messageId !in t
    ensures Matching(t[r.messageId := r], channel, author)
            == Matching(t, channel, author) + (if Matches(r, channel, author) then {r.messageId} else {})
  {
    var t' := t[r.messageId := r];
    forall k | k in t'
      ensures Matches(t'[k], channel, author) == (if k == r.messageId then Matches(r, channel, author) else Matches(t[k], channel, author))
    {
    }
  }

  /** A stored message is counted once by every filter it matches; a duplicate changes nothing. */
  lemma CountAfterInsert(t: Table, r: Row, channel: Option<int>, author: Option<int>)
    ensures |Matching(InsertIgnore(t, r), channel, author)| ==
      |Matching(t, channel, author)| + (if r.messageId !in t && Matches(r, channel, author) then 1 else 0)
  {
    if r.messageId !in t {
      MatchingAfterAdd(t, r, channel, author);
      assert r.messageId !in Matching(t, channel, author);
    }
  }

  /** Deleting a message takes it out of every count that included it. */
  lemma CountAfterDelete(t: Table, id: int, channel: Option<int>, author: Option<int>)
    ensures |Matching(DeleteById(t, id), channel, author)| ==
      |Matching(t, channel, author)| - (if id in t && Matches(t[id], channel, author) then 1 else 0)
  {
    var t' := t - {id};
    var m := Matching(t, channel, author);
    assert Matching(t', channel, author) == m - {id};
    if id in t && Matches(t[id], channel, author) {
      assert id in m;
    } else {
      assert id !in m;
    }
  }

  /** An edit changes no count, and moves the character total by the change in length. */
  lemma TotalsAfterEdit(t: Table, id: int, length: int, hasEmbed: bool, attachments: int,
                        channel: Option<int>, author: Option<int>)
    requires id in t
    ensures Matching(EditById(t, id, length, hasEmbed, attachments), channel, author) == Matching(t, channel, author)
    ensures var m := Matching(t, channel, author);
      SumLengths(EditById(t, id, length, hasEmbed, attachments), m) ==
      SumLengths(t, m) + (if id in m then length - t[id].messageLength else 0)
  {
    var t' := EditById(t, id, length, hasEmbed, attachments);
    var m := Matching(t, channel, author);
    forall k ensures k in Matching(t', channel, author) <==> k in m {
      if k in t {
        assert Matches(t'[k], channel, author) == Matches(t[k], channel, author);
      }
    }
    assert Matching(t', channel, author) == m;
    if id in m {
      SumLengthsRemove(t, m, id);
      SumLengthsRemove(t', m, id);
      SumLengthsAgree(t, t', m - {id});
    } else {
      SumLengthsAgree(t, t', m);
    }
  }

  /** Alias rewrites touch only `aliased_author_id`, which neither count function filters on. */
  lemma TotalsAfterAliasRewrite(t: Table, alias: int, v: Option<int>, channel: Option<int>, author: Option<int>)
    ensures Matching(SetAliasWhereAuthor(t, alias, v), channel, author) == Matching(t, channel, author)
    ensures var m := Matching(t, channel, author);
      SumLengths(SetAliasWhereAuthor(t, alias, v), m) == SumLengths(t, m)
  {
    var t' := SetAliasWhereAuthor(t, alias, v);
    forall k ensures k in Matching(t', channel, author) <==> k in Matching(t, channel, author) {
      if k in t {
        assert Matches(t'[k], channel, author) == Matches(t[k], channel, author);
      }
    }
    assert Matching(t', channel, author) == Matching(t, channel, author);
    SumLengthsAgree(t, t', Matching(t, channel, author));
  }

  /**
   * Deleting a channel's rows leaves nothing for a count filtered on that channel and
   * leaves every other channel's selection as it was.
   */
  lemma CountAfterChannelDelete(t: Table, channel: int, author: Option<int>)
    ensures Matching(DeleteChannelRows(t, channel), Some(channel), author) == {}
    ensures forall other :: other != channel ==>
      Matching(DeleteChannelRows(t, channel), Some(other), author) == Matching(t, Some(other), author)
  {
    var t' := DeleteChannelRows(t, channel);
    forall k ensures k !in Matching(t', Some(channel), author) {
      if k in t' {
        assert t'[k].channelId != channel;
      }
    }
    SetFacts.EmptyIfNoMember(Matching(t', Some(channel), author));
    forall other | other != channel
      ensures Matching(t', Some(other), author) == Matching(t, Some(other), author)
    {
      forall k ensures k in Matching(t', Some(other), author) <==> k in Matching(t, Some(other), author) {
        if k in t && t[k].channelId == other {
          assert k in t';
        }
      }
    }
  }

  // ---------------------------------------------------------------------------
  // `execute`: placeholder rewrite and fetch modes
  // ---------------------------------------------------------------------------

  /** `query.replace("?", "%s")`: every `?` placeholder becomes the driver's `%s`. */
  function PlaceholderQuery(query: string): (q: string)
    ensures '?' !in q
    ensures |q| == |query| + Strings.CountChar(query, '?')
    ensures Strings.CountChar(q, '%') == Strings.CountChar(query, '%') + Strings.CountChar(query, '?')
    ensures '?' !in query ==> q == query
  {
    if query == [] then []
    else
      var rest := PlaceholderQuery(query[1..]);
      var head := if query[0] == '?' then "%s" else [query[0]];
      Strings.CountCharAppend(head, rest, '%');
      head + rest
  }

  /** The rewrite is `"%s".join(query.split("?"))`: the text between placeholders is kept, in order. */
  lemma {:induction false} PlaceholderQueryIsSplitJoin(query: string)
    ensures PlaceholderQuery(query) == Strings.Join(Strings.Split(query, '?'), "%s")
  {
    if query != [] {
      var rest := Strings.Split(query[1..], '?');
      PlaceholderQueryIsSplitJoin(query[1..]);
      if query[0] == '?' {
        assert Strings.Split(query, '?') == [[]] + rest;
        assert ([[]] + rest)[1..] == rest;
      } else {
        Strings.JoinConsHead(query[0], rest, "%s");
      }
    }
  }

  /** What `execute` returns for its `fetch` argument, given the statement's result rows. */
  datatype Fetched<R> = NoResult | AllRows(rows: seq<R>) | OneRow(row: Option<R>)

  function Fetch<R>(fetch: Option<string>, rows: seq<R>): (f: Fetched<R>)
    ensures fetch == Some("all") ==> f == AllRows(rows)
    ensures fetch == Some("one") ==> f == OneRow(if rows == [] then None else Some(rows[0]))
    ensures fetch != Some("all") && fetch != Some("one") ==> f == NoResult
  {
    match fetch
    case None => NoResult
    case Some(mode) =>
      if mode == "all" then AllRows(rows)
      else if mode == "one" then OneRow(if rows == [] then None else Some(rows[0]))
      else NoResult
  }

  // ---------------------------------------------------------------------------
  // The connection object
  // ---------------------------------------------------------------------------

  /** The `DB` object: its pool (present or not) and the server's tables it reaches through it. */
  class Database {
    var connected: bool
    var tables: map<int, Table>
    var config: seq<ConfigRow>

    ghost predicate Valid()
      reads this
    {
      forall g :: g in tables ==> Keyed(tables[g])
    }

    /** Whether a statement on guild `g`'s table can run. */
    function TableStatus(g: int): Outcome<DbError>
      reads this
    {
      if !connected then Fail(NotConnected)
      else if g !in tables then Fail(NoSuchTable(g))
      else Pass
    }

    /** A fresh object has no pool yet; the server already holds `existing` and `existingConfig`. */
    constructor (existing: map<int, Table>, existingConfig: seq<ConfigRow>)
      requires forall g :: g in existing ==> Keyed(existing[g])
      ensures Valid() && !connected
      ensures tables == existing && config == existingConfig
    {
      connected := false;
      tables := existing;
      config := existingConfig;
    }

    /** `connect`: opens the pool unless there is one; the data never changes. */
    method Connect()
      modifies this`connected
      ensures connected
    {
      if connected {
        return;
      }
      connected := true;
    }

    /** `add_guild`: `CREATE TABLE IF NOT EXISTS`, so a second call changes nothing. */
    method AddGuild(g: int) returns (res: Outcome<DbError>)
      requires Valid()
      modifies this`tables
      ensures Valid()
      ensures res == (if connected then Pass else Fail(NotConnected))
      ensures tables == if res.Pass? && g !in old(tables) then old(tables)[g := map[]] else old(tables)
    {
      if !connected {
        return Fail(NotConnected);
      }
      if g !in tables {
        tables := tables[g := map[]];
      }
      res := Pass;
    }

    /** `remove_guild`: `DROP TABLE IF EXISTS`, a no-op for an absent guild. */
    method RemoveGuild(g: int) returns (res: Outcome<DbError>)
      requires Valid()
      modifies this`tables
      ensures Valid()
      ensures res == (if connected then Pass else Fail(NotConnected))
      ensures tables == if res.Pass? then old(tables) - {g} else old(tables)
    {
      if !connected {
        return Fail(NotConnected);
      }
      tables := tables - {g};
      res := Pass;
    }

    /** `add_message`: `INSERT IGNORE` of one row into the guild's table. */
    method AddMessage(g: int, row: Row) returns (res: Outcome<DbError>)
      requires Valid()
      modifies this`tables
      ensures Valid()
      ensures res == old(TableStatus(g))
      ensures tables == if res.Pass? then old(tables)[g := InsertIgnore(old(tables)[g], row)] else old(tables)
    {
      res := TableStatus(g);
      if res.Pass? {
        tables := tables[g := InsertIgnore(tables[g], row)];
      }
    }

    /** `delete_message`: removes the row with that id, if any. */
    method DeleteMessage(g: int, id: int) returns (res: Outcome<DbError>)
      requires Valid()
      modifies this`tables
      ensures Valid()
      ensures res == old(TableStatus(g))
      ensures tables == if res.Pass? then old(tables)[g := DeleteById(old(tables)[g], id)] else old(tables)
    {
      res := TableStatus(g);
      if res.Pass? {
        tables := tables[g := DeleteById(tables[g], id)];
      }
    }

    /** `edit_message`: rewrites the length, embed flag and attachment count of one row. */
    method EditMessage(g: int, id: int, length: int, hasEmbed: bool, attachments: int) returns (res: Outcome<DbError>)
      requires Valid()
      modifies this`tables
      ensures Valid()
      ensures res == old(TableStatus(g))
      ensures tables == if res.Pass? then old(tables)[g := EditById(old(tables)[g], id, length, hasEmbed, attachments)]
                        else old(tables)
    {
      res := TableStatus(g);
      if res.Pass? {
        tables := tables[g := EditById(tables[g], id, length, hasEmbed, attachments)];
      }
    }

    /** The `DELETE ... WHERE channel_id` statement run when a channel is deleted. */
    method DeleteChannel(g: int, channel: int) returns (res: Outcome<DbError>)
      requires Valid()
      modifies this`tables
      ensures Valid()
      ensures res == old(TableStatus(g))
      ensures tables == if res.Pass? then old(tables)[g := DeleteChannelRows(old(tables)[g], channel)] else old(tables)
    {
      res := TableStatus(g);
      if res.Pass? {
        tables := tables[g := DeleteChannelRows(tables[g], channel)];
      }
    }

    /** The `DELETE FROM config WHERE data1 = guild` statement run when the bot leaves a guild. */
    method DeleteGuildConfig(g: int) returns (res: Outcome<DbError>)
      modifies this`config
      ensures res == (if connected then Pass else Fail(NotConnected))
      ensures config == if res.Pass? then DeleteConfigOfGuild(old(config), g) else old(config)
    {
      if !connected {
        return Fail(NotConnected);
      }
      config := DeleteConfigOfGuild(config, g);
      res := Pass;
    }

    /**
     * `add_user_alias`: records ('alias', guild, user, alias) in config, then (by default)
     * points every row written by `alias` at `user`. The config insert is committed even
     * when the guild table is missing and the update fails.
     */
    method AddUserAlias(g: int, user: int, alias: int, updateExisting: bool) returns (res: Outcome<DbError>)
      requires Valid()
      modifies this`tables, this`config
      ensures Valid()
      ensures !connected ==> res == Fail(NotConnected) && config == old(config)
      ensures connected ==> config == old(config) + [ConfigRow("alias", g, Some(user), Some(alias))]
      ensures res == (if !connected then Fail(NotConnected) else if updateExisting then old(TableStatus(g)) else Pass)
      ensures tables == if res.Pass? && updateExisting
                        then old(tables)[g := SetAliasWhereAuthor(old(tables)[g], alias, Some(user))]
                        else old(tables)
    {
      if !connected {
        return Fail(NotConnected);
      }
      config := config + [ConfigRow("alias", g, Some(user), Some(alias))];
      res := Pass;
      if updateExisting {
        res := TableStatus(g);
        if res.Pass? {
          tables := tables[g := SetAliasWhereAuthor(tables[g], alias, Some(user))];
        }
      }
    }

    /** `remove_user_alias`: the reverse of `add_user_alias`; the rows' alias becomes NULL. */
    method RemoveUserAlias(g: int, user: int, alias: int, updateExisting: bool) returns (res: Outcome<DbError>)
      requires Valid()
      modifies this`tables, this`config
      ensures Valid()
      ensures !connected ==> res == Fail(NotConnected) && config == old(config)
      ensures connected ==> config == DeleteConfigRow(old(config), ConfigRow("alias", g, Some(user), Some(alias)))
      ensures res == (if !connected then Fail(NotConnected) else if updateExisting then old(TableStatus(g)) else Pass)
      ensures tables == if res.Pass? && updateExisting
                        then old(tables)[g := SetAliasWhereAuthor(old(tables)[g], alias, None)]
                        else old(tables)
    {
      if !connected {
        return Fail(NotConnected);
      }
      config := DeleteConfigRow(config, ConfigRow("alias", g, Some(user), Some(alias)));
      res := Pass;
      if updateExisting {
        res := TableStatus(g);
        if res.Pass? {
          tables := tables[g := SetAliasWhereAuthor(tables[g], alias, None)];
        }
      }
    }

    /** `set_timezone`: the upsert of the guild's offset from UTC, in hours. */
    method SetTimezone(g: int, tz: int) returns (res: Outcome<DbError>)
      modifies this`config
      ensures res == (if connected then Pass else Fail(NotConnected))
      ensures config == if res.Pass? then UpsertTimezone(old(config), g, tz) else old(config)
    {
      if !connected {
        return Fail(NotConnected);
      }
      config := UpsertTimezone(config, g, tz);
      res := Pass;
    }

    /** `get_timezone`: the stored offset, or None for a guild that never set one. */
    method GetTimezone(g: int) returns (r: Result<Option<int>, DbError>)
      ensures !connected ==> r == Err(NotConnected)
      ensures connected ==> r == Ok(LookupTimezone(config, g))
      ensures connected && !HasTimezoneRow(config, g) ==> r == Ok(None)
      ensures connected && HasTimezoneRow(config, g) ==>
        exists i :: 0 <= i < |config| && IsTimezoneRow(config[i], g) && r == Ok(config[i].data2)
    {
      if !connected {
        return Err(NotConnected);
      }
      var res := Fetch(Some("one"), TimezoneValues(config, g));
      LookupIsFetchOne(config, g);
      if res == OneRow(None) {
        return Ok(None);
      }
      r := Ok(res.row.value);
    }

    /** `get_message_count`: the number of rows the optional channel and author filters select. */
    method GetMessageCount(g: int, channel: Option<int>, author: Option<int>) returns (r: Result<nat, DbError>)
      ensures TableStatus(g).Fail? ==> r == Err(TableStatus(g).error)
      ensures TableStatus(g).Pass? ==> r == Ok(|Matching(tables[g], channel, author)|)
    {
      var status := TableStatus(g);
      if status.Fail? {
        return Err(status.error);
      }
      var n := CountRows(tables[g], g, channel, author);
      r := Ok(n);
    }

    /**
     * `get_character_count`: `SUM(message_length)` over the selected rows, which SQL makes
     * NULL (here None) when no row is selected.
     */
    method GetCharacterCount(g: int, channel: Option<int>, author: Option<int>) returns (r: Result<Option<int>, DbError>)
      ensures TableStatus(g).Fail? ==> r == Err(TableStatus(g).error)
      ensures TableStatus(g).Pass? && Matching(tables[g], channel, author) == {} ==> r == Ok(None)
      ensures TableStatus(g).Pass? && Matching(tables[g], channel, author) != {} ==>
        r == Ok(Some(SumLengths(tables[g], Matching(tables[g], channel, author))))
    {
      var status := TableStatus(g);
      if status.Fail? {
        return Err(status.error);
      }
      var total := SumRows(tables[g], g, channel, author);
      r := Ok(total);
    }
  }

  /** The `SELECT COUNT(*)` of the count function, run row by row over the table. */
  method CountRows(t: Table, guild: int, channel: Option<int>, author: Option<int>) returns (n: nat)
    ensures n == |Matching(t, channel, author)|
  {
    PlainSelects();
    var query, conditions, params := BuildFilter(FromTable("SELECT COUNT(*)", guild), channel, author);
    assert Strings.CountChar(query, '%') == |params| && '?' !in query;
    var remaining := t.Keys;
    ghost var selected: set<int> := {};
    n := 0;
    while remaining != {}
      invariant remaining <= t.Keys
      invariant selected == MatchingIn(t, t.Keys - remaining, channel, author)
      invariant n == |selected|
      decreases remaining
    {
      SetFacts.EmptyIfNoMember(remaining);
      var id :| id in remaining;
      MatchingInStep(t, t.Keys - remaining, id, channel, author);
      assert t.Keys - (remaining - {id}) == (t.Keys - remaining) + {id};
      assert Satisfies(conditions, params, t[id]) <==> Matches(t[id], channel, author);
      if Satisfies(conditions, params, t[id]) {
        n := n + 1;
        selected := selected + {id};
      }
      remaining := remaining - {id};
    }
    MatchingInAll(t, channel, author);
  }

  /** The `SELECT sum(message_length)` of the character count, run row by row over the table. */
  method SumRows(t: Table, guild: int, channel: Option<int>, author: Option<int>) returns (total: Option<int>)
    ensures Matching(t, channel, author) == {} ==> total == None
    ensures Matching(t, channel, author) != {} ==> total == Some(SumLengths(t, Matching(t, channel, author)))
  {
    PlainSelects();
    var query, conditions, params := BuildFilter(FromTable("SELECT sum(message_length)", guild), channel, author);
    assert Strings.CountChar(query, '%') == |params| && '?' !in query;
    var remaining := t.Keys;
    ghost var selected: set<int> := {};
    var sum := 0;
    var any := false;
    while remaining != {}
      invariant remaining <= t.Keys
      invariant selected == MatchingIn(t, t.Keys - remaining, channel, author) && selected <= t.Keys
      invariant sum == SumLengths(t, selected)
      invariant any <==> selected != {}
      decreases remaining
    {
      SetFacts.EmptyIfNoMember(remaining);
      var id :| id in remaining;
      SumRowsStep(t, remaining, id, selected, channel, author);
      assert Satisfies(conditions, params, t[id]) <==> Matches(t[id], channel, author);
      if Satisfies(conditions, params, t[id]) {
        sum := sum + t[id].messageLength;
        any := true;
        selected := selected + {id};
      }
      remaining := remaining - {id};
    }
    MatchingInAll(t, channel, author);
    total := if any then Some(sum) else None;
  }

  /** One more row examined by the sum: the selection and its sum grow by that row when it matches. */
  lemma SumRowsStep(t: Table, remaining: set<int>, id: int, selected: set<int>, channel: Option<int>, author: Option<int>)
    requires remaining <= t.Keys && id in remaining
    requires selected == MatchingIn(t, t.Keys - remaining, channel, author)
    ensures selected <= t.Keys
    ensures Matches(t[id], channel, author) ==>
      selected + {id} == MatchingIn(t, t.Keys - (remaining - {id}), channel, author)
      && SumLengths(t, selected + {id}) == SumLengths(t, selected) + t[id].messageLength
    ensures !Matches(t[id], channel, author) ==> selected == MatchingIn(t, t.Keys - (remaining - {id}), channel, author)
  {
    MatchingInStep(t, t.Keys - remaining, id, channel, author);
    assert t.Keys - (remaining - {id}) == (t.Keys - remaining) + {id};
    if Matches(t[id], channel, author) {
      SumLengthsAdd(t, selected, id);
    }
  }

  lemma MatchingInAll(t: Table, channel: Option<int>, author: Option<int>)
    ensures MatchingIn(t, t.Keys - {}, channel, author) == Matching(t, channel, author)
  {
    assert t.Keys - {} == t.Keys;
  }
}

=== FILE: helpers.dfy ===
/**
 * `is_ignored`: whether a channel or a user is on the guild-independent ignore lists kept in
 * the `config` table, as rows ('channel_ignore', channel) and ('user_ignore', user).
 */
module Helpers {
  import opened Wrappers
  import opened Db

  /** One column of a fetched row. */
  datatype Value = Text(text: string) | Integer(number: int) | Null

  function OptionalValue(v: Option<int>): Value {
    match v
    case None => Null
    case Some(n) => Integer(n)
  }

  /** `SELECT *` on `config`: the columns in the order `_key, data1, data2, data3`. */
  function AllColumns(row: ConfigRow): seq<Value> {
    [Text(row.key), Integer(row.data1), OptionalValue(row.data2), OptionalValue(row.data3)]
  }

  predicate IsIgnoreRow(row: ConfigRow, key: string, id: int) {
    row.key == key && row.data1 == id
  }

  predicate HasIgnoreRow(cfg: seq<ConfigRow>, key: string, id: int) {
    exists i :: 0 <= i < |cfg| && IsIgnoreRow(cfg[i], key, id)
  }

  /** `SELECT ... WHERE data1 = id AND _key = key` with `fetchone`: a matching row, or None. */
  function FetchIgnoreRow(cfg: seq<ConfigRow>, key: string, id: int): (r: Option<ConfigRow>)
    ensures r.None? <==> !HasIgnoreRow(cfg, key, id)
    ensures r.Some? ==> r.value in cfg && IsIgnoreRow(r.value, key, id)
  {
    if cfg == [] then None
    else if IsIgnoreRow(cfg[0], key, id) then Some(cfg[0])
    else
      assert HasIgnoreRow(cfg, key, id) ==> HasIgnoreRow(cfg[1..], key, id) by {
        if HasIgnoreRow(cfg, key, id) {
          var i :| 0 <= i < |cfg| && IsIgnoreRow(cfg[i], key, id);
          assert cfg[1..][i - 1] == cfg[i];
        }
      }
      FetchIgnoreRow(cfg[1..], key, id)
  }

  /** `SELECT ... FROM config WHERE data1 = id AND _key = key`: the result rows, in table order. */
  function IgnoreRows(cfg: seq<ConfigRow>, key: string, id: int): seq<ConfigRow> {
    if cfg == [] then []
    else (if IsIgnoreRow(cfg[0], key, id) then [cfg[0]] else []) + IgnoreRows(cfg[1..], key, id)
  }

  /** `execute(..., fetch="one")` on the ignore query returns the first matching row. */
  lemma {:induction false} FetchIgnoreRowIsFetchOne(cfg: seq<ConfigRow>, key: string, id: int)
    ensures Fetch(Some("one"), IgnoreRows(cfg, key, id)) == OneRow(FetchIgnoreRow(cfg, key, id))
  {
    if cfg != [] && !IsIgnoreRow(cfg[0], key, id) {
      FetchIgnoreRowIsFetchOne(cfg[1..], key, id);
      assert IgnoreRows(cfg, key, id) == IgnoreRows(cfg[1..], key, id);
    }
  }

  /** A statement `is_ignored` issues, with the id it looks up. */
  datatype Lookup = ChannelLookup(channel: int) | UserLookup(user: int)

  datatype IgnoreError =
    | BothNone                // ValueError: neither a channel nor a user was given
    | Database(error: DbError)

  /**
   * The channel flag as the source computes it: `res[0] == channel_id` on a `SELECT *` row,
   * whose first column is the text `_key`; a missing row (`None[0]`, a TypeError) is False.
   */
  function ChannelFlagAsWritten(res: Option<ConfigRow>, channel: int): bool {
    match res
    case None => false
    case Some(row) => AllColumns(row)[0] == Integer(channel)
  }

  /** The channel flag as intended: the fetched row's `data1` column is the channel. */
  function ChannelFlag(res: Option<ConfigRow>, channel: int): bool {
    match res
    case None => false
    case Some(row) => AllColumns(row)[1] == Integer(channel)
  }

  /** The user flag: `SELECT data1` gives a one-column row whose only value is `data1`. */
  function UserFlag(res: Option<ConfigRow>, user: int): bool {
    match res
    case None => false
    case Some(row) => [Integer(row.data1)][0] == Integer(user)
  }

  /** The final `if True in [...]: return True`; otherwise the function falls off its end. */
  function Verdict(channelIgnored: bool, userIgnored: bool): (r: Option<bool>)
    ensures r.Some? <==> channelIgnored || userIgnored
    ensures r != Some(false)
  {
    if channelIgnored || userIgnored then Some(true) else None
  }

  /** `is_ignored` as written, for a connected database and at least one id. */
  function IgnoredAsWritten(cfg: seq<ConfigRow>, channel: Option<int>, user: Option<int>): Option<bool> {
    var c := channel.Some? && ChannelFlagAsWritten(FetchIgnoreRow(cfg, "channel_ignore", channel.value), channel.value);
    var u := user.Some? && UserFlag(FetchIgnoreRow(cfg, "user_ignore", user.value), user.value);
    Verdict(c, u)
  }

  /** As written, the channel flag is never set, whatever the table holds. */
  lemma ChannelFlagAsWrittenNeverSet(cfg: seq<ConfigRow>, channel: int)
    ensures !ChannelFlagAsWritten(FetchIgnoreRow(cfg, "channel_ignore", channel), channel)
  {
  }

  /** An ignored channel, asked about alone, is reported as not ignored. */
  lemma IgnoredAsWrittenMissesChannel()
    ensures HasIgnoreRow([ConfigRow("channel_ignore", 7, None, None)], "channel_ignore", 7)
    ensures IgnoredAsWritten([ConfigRow("channel_ignore", 7, None, None)], Some(7), None) == None
  {
    assert IsIgnoreRow([ConfigRow("channel_ignore", 7, None, None)][0], "channel_ignore", 7);
  }

  /**
   * `is_ignored(db, channel_id, user_id)` with the channel flag read from `data1`: True when
   * a supplied id has its ignore row, None otherwise; each supplied id costs one lookup.
   */
  method IsIgnored(db: Database, channel: Option<int>, user: Option<int>)
    returns (lookups: seq<Lookup>, r: Result<Option<bool>, IgnoreError>)
    ensures channel.None? && user.None? <==> r == Err(BothNone)
    ensures channel.None? && user.None? ==> lookups == []
    ensures (channel.Some? || user.Some?) && !db.connected ==> r == Err(Database(NotConnected))
    ensures db.connected ==>
      lookups == (if channel.Some? then [ChannelLookup(channel.value)] else [])
                 + (if user.Some? then [UserLookup(user.value)] else [])
    ensures db.connected && (channel.Some? || user.Some?) ==>
      r.Ok? && r.value != Some(false)
      && (r.value == Some(true) <==>
            (channel.Some? && HasIgnoreRow(db.config, "channel_ignore", channel.value))
            || (user.Some? && HasIgnoreRow(db.config, "user_ignore", user.value)))
  {
    lookups := [];
    if channel.None? && user.None? {
      return [], Err(BothNone);
    }
    var channelIgnored := false;
    var userIgnored := false;
    if channel.Some? {
      if !db.connected {
        return lookups, Err(Database(NotConnected));
      }
      lookups := lookups + [ChannelLookup(channel.value)];
      var res := Fetch(Some("one"), IgnoreRows(db.config, "channel_ignore", channel.value)).row;
      FetchIgnoreRowIsFetchOne(db.config, "channel_ignore", channel.value);
      channelIgnored := ChannelFlag(res, channel.value);
    }
    if user.Some? {
      if !db.connected {
        return lookups, Err(Database(NotConnected));
      }
      lookups := lookups + [UserLookup(user.value)];
      var res := Fetch(Some("one"), IgnoreRows(db.config, "user_ignore", user.value)).row;
      FetchIgnoreRowIsFetchOne(db.config, "user_ignore", user.value);
      userIgnored := UserFlag(res, user.value);
    }
    r := Ok(Verdict(channelIgnored, userIgnored));
  }
}

=== FILE: listeners.dfy ===
/**
 * The event listeners that keep the message tables in step with Discord: live messages are
 * filtered and stored, edits and deletions are mirrored, and joining or leaving a guild
 * creates or drops its table. Discord's events arrive as plain values.
 */
module Listeners {
  import opened Wrappers
  import opened Db

  /** The parts of a `discord.Message` the handlers read. */
  datatype Message = Message(
    id: int,
    guild: Option<int>,     // None for a direct message
    channel: int,
    author: int,
    system: bool,           // `message.is_system()`
    content: string,
    createdAt: int,         // `created_at.timestamp()`, in whole seconds
    embeds: nat,
    attachments: nat)

  /** Why a handler raised: a direct message has no `guild.id`, or a statement failed. */
  datatype ListenerError = NoGuild | Statement(error: DbError)

  function Lift(o: Outcome<DbError>): (r: Outcome<ListenerError>)
    ensures r.Pass? <==> o.Pass?
  {
    match o
    case Pass => Pass
    case Fail(e) => Fail(Statement(e))
  }

  /** `id in ignores[guild]`, where a guild without an entry (a KeyError) ignores nothing. */
  predicate Ignored(ignores: map<int, set<int>>, guild: int, id: int) {
    guild in ignores && id in ignores[guild]
  }

  /** `aliased_users[guild][author]`, or the author itself on a KeyError. */
  function AliasOf(aliases: map<int, map<int, int>>, guild: int, author: int): int {
    if guild in aliases && author in aliases[guild] then aliases[guild][author] else author
  }

  /** The `Listeners` cog: its database handle and the caches `cache` refreshes. */
  class Listeners {
    const db: Database
    var channelIgnores: map<int, set<int>>
    var userIgnores: map<int, set<int>>
    var aliasedUsers: map<int, map<int, int>>

    ghost predicate Valid()
      reads this, db
    {
      db.Valid()
    }

    constructor (db: Database)
      requires db.Valid()
      ensures Valid() && this.db == db
      ensures channelIgnores == map[] && userIgnores == map[] && aliasedUsers == map[]
    {
      this.db := db;
      channelIgnores := map[];
      userIgnores := map[];
      aliasedUsers := map[];
    }

    /**
     * `on_message`: direct and system messages are dropped; otherwise the pool is opened if
     * needed, messages in ignored channels or by ignored authors are dropped, and the rest
     * is inserted with its author's alias. An insert that raises is logged and swallowed.
     * `stored` is the record handed to `add_message`.
     */
    method OnMessage(m: Message) returns (stored: Option<Row>)
      requires Valid()
      modifies db
      ensures Valid() && db.config == old(db.config)
      ensures m.guild.None? || m.system ==> stored == None && db.connected == old(db.connected) && db.tables == old(db.tables)
      ensures m.guild.Some? && !m.system ==> db.connected
      ensures stored.Some? <==>
        m.guild.Some? && !m.system
        && !Ignored(channelIgnores, m.guild.value, m.channel) && !Ignored(userIgnores, m.guild.value, m.author)
      ensures stored.Some? ==>
        stored.value == Row(m.id, m.channel, m.author, Some(AliasOf(aliasedUsers, m.guild.value, m.author)),
                            |m.content|, m.createdAt, m.embeds > 0, m.attachments)
      ensures db.tables ==
        if stored.Some? && m.guild.value in old(db.tables)
        then old(db.tables)[m.guild.value := InsertIgnore(old(db.tables)[m.guild.value], stored.value)]
        else old(db.tables)
    {
      if m.guild.None? || m.system {
        return None;
      }
      var g := m.guild.value;
      if !db.connected {
        db.Connect();
      }
      if Ignored(channelIgnores, g, m.channel) {
        return None;
      }
      if Ignored(userIgnores, g, m.author) {
        return None;
      }
      var authorId := m.author;
      if g in aliasedUsers && authorId in aliasedUsers[g] {
        authorId := aliasedUsers[g][authorId];
      }
      var msg := Row(m.id, m.channel, m.author, Some(authorId), |m.content|, m.createdAt, m.embeds > 0, m.attachments);
      var _ := db.AddMessage(g, msg);
      stored := Some(msg);
    }

    /**
     * `on_message_edit`: without a pool, opens one and drops the edit; otherwise rewrites the
     * length, embed flag and attachment count of the row keyed by `before.id` from `after`.
     */
    method OnMessageEdit(before: Message, after: Message) returns (r: Outcome<ListenerError>)
      requires Valid()
      modifies db
      ensures Valid() && db.connected && db.config == old(db.config)
      ensures !old(db.connected) ==> r == Pass && db.tables == old(db.tables)
      ensures old(db.connected) && before.guild.None? ==> r == Fail(NoGuild) && db.tables == old(db.tables)
      ensures old(db.connected) && before.guild.Some? ==>
        r == Lift(old(db.TableStatus(before.guild.value)))
        && db.tables == if r.Pass?
                        then old(db.tables)[before.guild.value :=
                               EditById(old(db.tables)[before.guild.value], before.id, |after.content|, after.embeds > 0, after.attachments)]
                        else old(db.tables)
    {
      if !db.connected {
        db.Connect();
        return Pass;
      }
      if before.guild.None? {
        return Fail(NoGuild);
      }
      var res := db.EditMessage(before.guild.value, before.id, |after.content|, after.embeds > 0, after.attachments);
      r := Lift(res);
    }

    /** `on_guild_join`: without a pool, opens one and skips; otherwise creates the guild's table. */
    method OnGuildJoin(guild: int) returns (r: Outcome<ListenerError>)
      requires Valid()
      modifies db
      ensures Valid() && db.connected && db.config == old(db.config) && r == Pass
      ensures !old(db.connected) ==> db.tables == old(db.tables)
      ensures old(db.connected) ==>
        db.tables == if guild in old(db.tables) then old(db.tables) else old(db.tables)[guild := map[]]
    {
      if !db.connected {
        db.Connect();
        return Pass;
      }
      var res := db.AddGuild(guild);
      r := Lift(res);
    }

    /**
     * `on_guild_remove`: without a pool, opens one and skips; otherwise drops the guild's
     * table and deletes every config row whose `data1` is the guild.
     */
    method OnGuildRemove(guild: int) returns (r: Outcome<ListenerError>)
      requires Valid()
      modifies db
      ensures Valid() && db.connected && r == Pass
      ensures !old(db.connected) ==> db.tables == old(db.tables) && db.config == old(db.config)
      ensures old(db.connected) ==>
        db.tables == old(db.tables) - {guild} && db.config == DeleteConfigOfGuild(old(db.config), guild)
    {
      if !db.connected {
        db.Connect();
        return Pass;
      }
      var res := db.RemoveGuild(guild);
      r := Lift(res);
      res := db.DeleteGuildConfig(guild);
      r := Lift(res);
    }

    /** `on_message_delete`: without a pool, opens one and skips; otherwise deletes the row. */
    method OnMessageDelete(m: Message) returns (r: Outcome<ListenerError>)
      requires Valid()
      modifies db
      ensures Valid() && db.connected && db.config == old(db.config)
      ensures !old(db.connected) ==> r == Pass && db.tables == old(db.tables)
      ensures old(db.connected) && m.guild.None? ==> r == Fail(NoGuild) && db.tables == old(db.tables)
      ensures old(db.connected) && m.guild.Some? ==>
        r == Lift(old(db.TableStatus(m.guild.value)))
        && db.tables == if r.Pass?
                        then old(db.tables)[m.guild.value := DeleteById(old(db.tables)[m.guild.value], m.id)]
                        else old(db.tables)
    {
      if !db.connected {
        db.Connect();
        return Pass;
      }
      if m.guild.None? {
        return Fail(NoGuild);
      }
      var res := db.DeleteMessage(m.guild.value, m.id);
      r := Lift(res);
    }

    /**
     * `on_guild_channel_delete`: deletes the channel's rows from its guild's table. It has no
     * connection guard, so without a pool it raises and nothing changes.
     */
    method OnGuildChannelDelete(guild: int, channel: int) returns (r: Outcome<ListenerError>)
      requires Valid()
      modifies db
      ensures Valid() && db.connected == old(db.connected) && db.config == old(db.config)
      ensures r == Lift(old(db.TableStatus(guild)))
      ensures !old(db.connected) ==> r == Fail(Statement(NotConnected))
      ensures db.tables == if r.Pass?
                           then old(db.tables)[guild := DeleteChannelRows(old(db.tables)[guild], channel)]
                           else old(db.tables)
    {
      var res := db.DeleteChannel(guild, channel);
      r := Lift(res);
    }

    /**
     * The `cache` task: opens the pool if needed, then replaces the alias cache with what
     * `get_user_aliases` returned (`fetched`), keeping the old cache when that raised. The
     * ignore caches are never refreshed.
     */
    method Cache(fetched: Option<map<int, map<int, int>>>)
      requires Valid()
      modifies this, db
      ensures Valid() && db.connected && db.tables == old(db.tables) && db.config == old(db.config)
      ensures aliasedUsers == if fetched.Some? then fetched.value else old(aliasedUsers)
      ensures channelIgnores == old(channelIgnores) && userIgnores == old(userIgnores)
    {
      if !db.connected {
        db.Connect();
      }
      if fetched.Some? {
        aliasedUsers := fetched.value;
      }
    }
  }
}

=== FILE: sets.dfy ===
/**
 * A fact about finite sets of ids (message, channel and user ids are all integers) that
 * the models need to pick an element of a non-empty set.
 */
module SetFacts {

  /** A set without members is the empty set. */
  lemma EmptyIfNoMember(s: set<int>)
    ensures (forall x :: x !in s) ==> s == {}
  {
    if forall x :: x !in s {
      assert s == {};
    }
  }
}

=== FILE: strings.dfy ===
/**
 * The Python `str` and `int` builtins the bot relies on, restricted to the behaviour its
 * inputs exercise: `str(n)` for integers, `int(s)`, `s.split(sep)`, `sep.join(parts)`,
 * `s.upper()` and `s.strip()`.
 */
module Strings {
  import opened Wrappers

  // ---------------------------------------------------------------------------
  // Decimal digits, `str(n)` and `int(s)`
  // ---------------------------------------------------------------------------

  predicate IsDigit(c: char) {
    '0' <= c <= '9'
  }

  predicate AllDigits(s: string) {
    forall i :: 0 <= i < |s| ==> IsDigit(s[i])
  }

  function DigitChar(d: nat): (c: char)
    requires d < 10
    ensures IsDigit(c) && c as int == '0' as int + d
  {
    ('0' as int + d) as char
  }

  function DigitValue(c: char): (d: nat)
    requires IsDigit(c)
    ensures d < 10 && DigitChar(d) == c
  {
    (c as int - '0' as int) as nat
  }

  /** `str(n)` for a non-negative integer: its decimal digits, most significant first. */
  function NatToString(n: nat): (s: string)
    ensures |s| >= 1 && AllDigits(s)
  {
    if n < 10 then [DigitChar(n)] else NatToString(n / 10) + [DigitChar(n % 10)]
  }

  /** The value of a string of decimal digits (leading zeros allowed, as `int` allows them). */
  function DigitsValue(s: string): nat
    requires AllDigits(s)
  {
    if s == [] then 0 else DigitsValue(s[..|s| - 1]) * 10 + DigitValue(s[|s| - 1])
  }

  lemma {:induction false} DigitsValueOfNatToString(n: nat)
    ensures DigitsValue(NatToString(n)) == n
  {
    var s := NatToString(n);
    if n >= 10 {
      var q, r := n / 10, n % 10;
      DigitsValueOfNatToString(q);
      assert s == NatToString(q) + [DigitChar(r)];
      assert s[..|s| - 1] == NatToString(q);
      assert DigitValue(s[|s| - 1]) == r;
      assert n == q * 10 + r;
    } else {
      assert DigitValue(s[0]) == n;
    }
  }

  /** `str(i)` for any integer: a minus sign before the digits of a negative one. */
  function IntToString(i: int): (s: string)
    ensures |s| >= 1 && !IsSpace(s[0]) && !IsSpace(s[|s| - 1])
    ensures ',' !in s
    ensures forall k :: 0 <= k < |s| ==> IsDigit(s[k]) || (k == 0 && s[k] == '-')
  {
    if i < 0 then "-" + NatToString(-i) else NatToString(i)
  }

  /**
   * `int(s)`: surrounding whitespace is ignored, then an optional sign and at least one
   * decimal digit must make up the rest; anything else is a `ValueError`, here `None`.
   */
  function ParseInt(s: string): (r: Option<int>)
    ensures r.Some? ==> |Strip(s)| >= 1
  {
    ParseSigned(Strip(s))
  }

  /** An optional sign followed by at least one decimal digit. */
  function ParseSigned(t: string): (r: Option<int>)
    ensures r.Some? ==> |t| >= 1
  {
    if t == [] then None
    else if t[0] == '-' then
      match ParseDigits(t[1..])
      case Some(v) => Some(-v)
      case None => None
    else if t[0] == '+' then ParseDigits(t[1..])
    else ParseDigits(t)
  }

  /** At least one decimal digit and nothing else. */
  function ParseDigits(d: string): (r: Option<int>)
    ensures r.Some? ==> |d| >= 1 && AllDigits(d) && r.value >= 0
  {
    if d != [] && AllDigits(d) then Some(DigitsValue(d)) else None
  }

  lemma ParseDigitsOfNatToString(n: nat)
    ensures ParseDigits(NatToString(n)) == Some(n)
  {
    DigitsValueOfNatToString(n);
  }

  lemma ParseSignedOfIntToString(i: int)
    ensures ParseSigned(IntToString(i)) == Some(i)
  {
    var t := IntToString(i);
    if i < 0 {
      var d := NatToString(-i);
      ParseDigitsOfNatToString(-i);
      assert t[0] == '-' && t[1..] == d;
    } else {
      var d := NatToString(i);
      ParseDigitsOfNatToString(i);
      assert t == d && IsDigit(d[0]);
    }
  }

  /** `int(str(i)) == i` for every integer. */
  lemma ParseIntOfIntToString(i: int)
    ensures ParseInt(IntToString(i)) == Some(i)
  {
    StripUnpadded(IntToString(i));
    ParseSignedOfIntToString(i);
  }

  // ---------------------------------------------------------------------------
  // Whitespace and `strip()`
  // ---------------------------------------------------------------------------

  /** The characters `str.isspace` accepts. */
  predicate IsSpace(c: char) {
    c == ' ' || ('\t' <= c <= '\r') || ('\U{1C}' <= c <= '\U{1F}') || c == '\U{85}' || c == '\U{A0}'
    || c == '\U{1680}' || ('\U{2000}' <= c <= '\U{200A}') || c == '\U{2028}' || c == '\U{2029}'
    || c == '\U{202F}' || c == '\U{205F}' || c == '\U{3000}'
  }

  function StripLeft(s: string): (r: string)
    ensures |r| <= |s| && r == s[|s| - |r|..]
    ensures r == [] || !IsSpace(r[0])
  {
    if s != [] && IsSpace(s[0]) then StripLeft(s[1..]) else s
  }

  function StripRight(s: string): (r: string)
    ensures |r| <= |s| && r == s[..|r|]
    ensures r == [] || !IsSpace(r[|r| - 1])
  {
    if s != [] && IsSpace(s[|s| - 1]) then StripRight(s[..|s| - 1]) else s
  }

  /** `s.strip()`: `s` without its leading and trailing whitespace. */
  function Strip(s: string): (r: string)
    ensures |r| <= |s|
    ensures r == [] || (!IsSpace(r[0]) && !IsSpace(r[|r| - 1]))
  {
    StripRight(StripLeft(s))
  }

  /** A string that neither starts nor ends with whitespace is its own strip. */
  lemma StripUnpadded(s: string)
    requires s == [] || (!IsSpace(s[0]) && !IsSpace(s[|s| - 1]))
    ensures Strip(s) == s
  {
  }

  // ---------------------------------------------------------------------------
  // `upper()`
  // ---------------------------------------------------------------------------

  /**
   * Upper case of one character for the characters whose upper case is a single
   * character of the ASCII range; every other character is kept.
   */
  function UpperChar(c: char): (u: char)
    ensures IsSpace(u) <==> IsSpace(c)
  {
    if 'a' <= c <= 'z' then (c as int - 32) as char
    else if c == '\U{131}' then 'I'   // dotless i
    else if c == '\U{17F}' then 'S'   // long s
    else c
  }

  /** `s.upper()`, character by character. */
  function Upper(s: string): (r: string)
    ensures |r| == |s|
    ensures forall i :: 0 <= i < |s| ==> r[i] == UpperChar(s[i])
  {
    if s == [] then [] else [UpperChar(s[0])] + Upper(s[1..])
  }

  // ---------------------------------------------------------------------------
  // `split(sep)` and `sep.join(parts)`
  // ---------------------------------------------------------------------------

  /** `s.split(sep)` for a one-character separator: never empty, `"".split(",") == [""]`. */
  function Split(s: string, sep: char): (parts: seq<string>)
    ensures |parts| >= 1
    ensures forall i :: 0 <= i < |parts| ==> sep !in parts[i]
  {
    if s == [] then [[]]
    else
      var rest := Split(s[1..], sep);
      if s[0] == sep then [[]] + rest else [[s[0]] + rest[0]] + rest[1..]
  }

  /** `sep.join(parts)`. */
  function Join(parts: seq<string>, sep: string): string {
    if |parts| == 0 then []
    else if |parts| == 1 then parts[0]
    else parts[0] + sep + Join(parts[1..], sep)
  }

  lemma {:induction false} SplitNoSeparator(s: string, sep: char)
    requires sep !in s
    ensures Split(s, sep) == [s]
  {
    if s != [] {
      SplitNoSeparator(s[1..], sep);
      assert [s[0]] + s[1..] == s;
    }
  }

  lemma {:induction false} SplitAtFirstSeparator(a: string, sep: char, b: string)
    requires sep !in a
    ensures Split(a + [sep] + b, sep) == [a] + Split(b, sep)
  {
    if a == [] {
      assert a + [sep] + b == [sep] + b;
      assert ([sep] + b)[1..] == b;
    } else {
      SplitAtFirstSeparator(a[1..], sep, b);
      assert (a + [sep] + b)[1..] == a[1..] + [sep] + b;
      assert [a[0]] + a[1..] == a;
    }
  }

  /** Splitting a join on the same one-character separator gives the parts back. */
  lemma {:induction false} SplitJoin(parts: seq<string>, sep: char)
    requires |parts| >= 1
    requires forall i :: 0 <= i < |parts| ==> sep !in parts[i]
    ensures Split(Join(parts, [sep]), sep) == parts
  {
    if |parts| == 1 {
      SplitNoSeparator(parts[0], sep);
    } else {
      SplitJoin(parts[1..], sep);
      SplitAtFirstSeparator(parts[0], sep, Join(parts[1..], [sep]));
      assert [parts[0]] + parts[1..] == parts;
    }
  }

  // ---------------------------------------------------------------------------
  // `replace(old, new)` for a one-character `old`
  // ---------------------------------------------------------------------------

  function CountChar(s: string, c: char): nat {
    if s == [] then 0 else (if s[0] == c then 1 else 0) + CountChar(s[1..], c)
  }

  lemma {:induction false} CountCharAppend(a: string, b: string, c: char)
    ensures CountChar(a + b, c) == CountChar(a, c) + CountChar(b, c)
  {
    if a != [] {
      var ab := a + b;
      assert ab[0] == a[0];
      assert ab[1..] == a[1..] + b;
      CountCharAppend(a[1..], b, c);
      assert CountChar(ab, c) == (if a[0] == c then 1 else 0) + CountChar(a[1..] + b, c);
    } else {
      assert a + b == b;
    }
  }

  /** A character is absent exactly when it is counted zero times. */
  lemma {:induction false} CountCharAbsent(s: string, c: char)
    ensures c !in s <==> CountChar(s, c) == 0
  {
    if s != [] {
      CountCharAbsent(s[1..], c);
      assert s == [s[0]] + s[1..];
    }
  }

  /** Joining a split whose first part gained a leading character adds that character in front. */
  lemma JoinConsHead(ch: char, parts: seq<string>, sep: string)
    requires |parts| >= 1
    ensures Join([[ch] + parts[0]] + parts[1..], sep) == [ch] + Join(parts, sep)
  {
    var joined := [[ch] + parts[0]] + parts[1..];
    assert joined[0] == [ch] + parts[0];
    assert joined[1..] == parts[1..];
    if |parts| > 1 {
      assert Join(joined, sep) == ([ch] + parts[0]) + sep + Join(parts[1..], sep);
    }
  }
}

=== FILE: top.dfy ===
/**
 * The rankings of `srg_analytics/top.py`: the top members of a guild by message or
 * character count over a period (with an optional "others" row), the top channels by
 * characters, and the period words of the chart title. The grouped query results are
 * inputs: the queries name columns the guild tables do not have, so their rows cannot be
 * derived from the table model.
 */
module Top {
  import opened Wrappers
  import Calendar
  import Db

  // ---------------------------------------------------------------------------
  // Python slices `s[:i]` and `s[i:]`
  // ---------------------------------------------------------------------------

  /** Where a slice bound `i` falls in a sequence of length `n`: negative counts from the end. */
  function SliceBound(n: nat, i: int): (b: nat)
    ensures b <= n
    ensures 0 <= i ==> b == if i < n then i else n
    ensures i < 0 ==> b == if n + i < 0 then 0 else n + i
  {
    if i < 0 then (if n + i < 0 then 0 else n + i) else if i > n then n else i
  }

  /** `s[:i]`. */
  function Take<T>(s: seq<T>, i: int): seq<T> {
    s[..SliceBound(|s|, i)]
  }

  /** `s[i:]`. */
  function Drop<T>(s: seq<T>, i: int): seq<T> {
    s[SliceBound(|s|, i)..]
  }

  /** A second slice with the same non-negative bound changes nothing: `s[:i][:i] == s[:i]`. */
  lemma TakeTake<T>(s: seq<T>, i: int)
    requires i >= 0
    ensures Take(Take(s, i), i) == Take(s, i)
  {
  }

  // ---------------------------------------------------------------------------
  // The period argument, the timezone fallback and the start of the period
  // ---------------------------------------------------------------------------

  datatype Period = Day | Week | Month | Year | AllTime

  /** The `timeperiod` argument that selects each period (`None` for all time). */
  function PeriodName(p: Period): Option<string> {
    match p
    case Day => Some("day")
    case Week => Some("week")
    case Month => Some("month")
    case Year => Some("year")
    case AllTime => None
  }

  datatype TopError =
    | InvalidPeriod             // the ValueError raised for an unknown `timeperiod`
    | InvalidOffset(hours: int) // `datetime.timezone` refuses offsets of a whole day or more
    | DateOverflow              // `now - timedelta(days=7)` would fall before year 1
    | Database(error: Db.DbError)
    | NegativeLimit(amount: int) // MySQL refuses `LIMIT` with a negative count

  /** The check of `timeperiod` that runs before any query. */
  function ParsePeriod(timeperiod: Option<string>): (r: Result<Period, TopError>)
    ensures r.Ok? <==> timeperiod in [Some("day"), Some("week"), Some("month"), Some("year"), None]
    ensures r.Ok? ==> PeriodName(r.value) == timeperiod
    ensures r.Err? ==> r.error == InvalidPeriod
  {
    match timeperiod
    case None => Ok(AllTime)
    case Some(t) =>
      if t == "day" then Ok(Day)
      else if t == "week" then Ok(Week)
      else if t == "month" then Ok(Month)
      else if t == "year" then Ok(Year)
      else Err(InvalidPeriod)
  }

  /**
   * The UTC offset, in hours, that the rankings work in: the guild's stored offset, or
   * UTC+3 when none is stored or the stored one is 0 (`not timezone` holds for both).
   */
  function ResolveOffset(stored: Option<int>): (r: Result<int, TopError>)
    ensures stored == None || stored == Some(0) ==> r == Ok(3)
    ensures stored.Some? && stored.value != 0 && -24 < stored.value < 24 ==> r == Ok(stored.value)
    ensures stored.Some? && stored.value != 0 && !(-24 < stored.value < 24) ==> r == Err(InvalidOffset(stored.value))
  {
    match stored
    case None => Ok(3)
    case Some(h) =>
      if h == 0 then Ok(3)
      else if -24 < h < 24 then Ok(h)
      else Err(InvalidOffset(h))
  }

  /**
   * The offset a ranking uses right after `set_timezone(guild, tz)`: `tz` itself, except
   * that 0 reads as unset and falls back to UTC+3.
   */
  lemma OffsetAfterSetTimezone(cfg: seq<Db.ConfigRow>, guild: int, tz: int)
    ensures ResolveOffset(Db.LookupTimezone(Db.UpsertTimezone(cfg, guild, tz), guild)) ==
      if tz == 0 then Ok(3) else if -24 < tz < 24 then Ok(tz) else Err(InvalidOffset(tz))
  {
    Db.LookupAfterUpsert(cfg, guild, tz);
  }

  predicate Midnight(d: Calendar.DateTime) {
    d.hour == 0 && d.minute == 0 && d.second == 0 && d.microsecond == 0
  }

  /**
   * The earliest wall-clock time the period covers, given the current one: today's
   * midnight, seven days ago, the first of the month, the first of the year, or no
   * bound at all.
   */
  function PeriodStart(p: Period, now: Calendar.DateTime): (r: Result<Option<Calendar.DateTime>, TopError>)
    requires Calendar.Valid(now)
    ensures r == Ok(None) <==> p == AllTime
    ensures r.Err? <==> p == Week && now.year == 1 && now.month == 1 && now.day <= 7
    ensures r.Err? ==> r.error == DateOverflow
    ensures r.Ok? && r.value.Some? ==>
      Calendar.Valid(r.value.value) && Calendar.LocalMicros(r.value.value) <= Calendar.LocalMicros(now)
    ensures p == Week && r.Ok? ==> r.value == WeekBefore(now)
    ensures p in {Day, Month, Year} ==>
      r.Ok? && Midnight(r.value.value) && r.value.value.year == now.year
      && r.value.value.month == (if p == Year then 1 else now.month)
      && r.value.value.day == (if p == Day then now.day else 1)
  {
    match p
    case Day => Ok(Some(MidnightOf(now, now.month, now.day)))
    case Week =>
      (match WeekBefore(now)
       case None => Err(DateOverflow)
       case Some(s) => Ok(Some(s)))
    case Month => Ok(Some(MidnightOf(now, now.month, 1)))
    case Year => Ok(Some(MidnightOf(now, 1, 1)))
    case AllTime => Ok(None)
  }

  /** Midnight of day `day` of month `month` in the year of `now`, no later than `now`. */
  function MidnightOf(now: Calendar.DateTime, month: int, day: int): (r: Calendar.DateTime)
    requires Calendar.Valid(now)
    requires (month == now.month && 1 <= day <= now.day) || (month == 1 && day == 1)
    ensures Calendar.Valid(r) && Midnight(r)
    ensures r.year == now.year && r.month == month && r.day == day
    ensures Calendar.LocalMicros(r) <= Calendar.LocalMicros(now)
  {
    var m := Calendar.DateTime(now.year, month, day, 0, 0, 0, 0);
    Calendar.MidnightNotLater(m, now);
    m
  }

  /** `now - timedelta(days=7)`, None where that falls before year 1. */
  function WeekBefore(now: Calendar.DateTime): (r: Option<Calendar.DateTime>)
    requires Calendar.Valid(now)
    ensures r.None? <==> now.year == 1 && now.month == 1 && now.day <= 7
    ensures r.Some? ==> Calendar.Valid(r.value)
    ensures r.Some? ==> Calendar.LocalMicros(r.value) == Calendar.LocalMicros(now) - 7 * Calendar.MicrosPerDay
    ensures r.Some? ==> Calendar.LocalMicros(r.value) <= Calendar.LocalMicros(now)
  {
    Calendar.FirstWeek(now);
    Calendar.MinusDays(now, 7)
  }

  // ---------------------------------------------------------------------------
  // Top members
  // ---------------------------------------------------------------------------

  /** One grouped row of a ranking query: `aliased_author_id` (NULL possible) and its count. */
  datatype TopRow = TopRow(key: Option<int>, count: int)

  /** An entry of a ranking: a member's row, or the `('others', total)` row. */
  datatype Ranked = Member(key: Option<int>, count: int) | Others(count: int)

  function Members(rows: seq<TopRow>): (r: seq<Ranked>)
    ensures |r| == |rows|
    ensures forall i :: 0 <= i < |rows| ==> r[i] == Member(rows[i].key, rows[i].count)
  {
    if rows == [] then [] else [Member(rows[0].key, rows[0].count)] + Members(rows[1..])
  }

  function SumCounts(rows: seq<TopRow>): int {
    if rows == [] then 0 else rows[0].count + SumCounts(rows[1..])
  }

  function RankedTotal(r: seq<Ranked>): int {
    if r == [] then 0 else r[0].count + RankedTotal(r[1..])
  }

  lemma {:induction false} SumCountsAppend(a: seq<TopRow>, b: seq<TopRow>)
    ensures SumCounts(a + b) == SumCounts(a) + SumCounts(b)
  {
    if a == [] {
      assert a + b == b;
    } else {
      SumCountsAppend(a[1..], b);
      assert (a + b)[1..] == a[1..] + b;
    }
  }

  lemma {:induction false} RankedTotalAppend(a: seq<Ranked>, b: seq<Ranked>)
    ensures RankedTotal(a + b) == RankedTotal(a) + RankedTotal(b)
  {
    if a == [] {
      assert a + b == b;
    } else {
      RankedTotalAppend(a[1..], b);
      assert (a + b)[1..] == a[1..] + b;
    }
  }

  lemma {:induction false} RankedTotalOfMembers(rows: seq<TopRow>)
    ensures RankedTotal(Members(rows)) == SumCounts(rows)
  {
    if rows != [] {
      RankedTotalOfMembers(rows[1..]);
      assert Members(rows)[1..] == Members(rows[1..]);
    }
  }

  /** `[*top[:amount], ('others', sum of the counts in top[amount:])]`. */
  function OthersFold(top: seq<TopRow>, amount: int): (r: seq<Ranked>)
    ensures |r| == SliceBound(|top|, amount) + 1
    ensures amount >= 0 ==> |r| <= amount + 1
    ensures r[..|r| - 1] == Members(Take(top, amount))
    ensures r[|r| - 1] == Others(SumCounts(Drop(top, amount)))
  {
    Members(Take(top, amount)) + [Others(SumCounts(Drop(top, amount)))]
  }

  /** The "others" row makes up exactly the difference: no count is lost or doubled. */
  lemma OthersFoldPreservesTotal(top: seq<TopRow>, amount: int)
    ensures RankedTotal(OthersFold(top, amount)) == SumCounts(top)
  {
    var head, tail := Take(top, amount), Drop(top, amount);
    var others := [Others(SumCounts(tail))];
    assert head + tail == top;
    SumCountsAppend(head, tail);
    assert OthersFold(top, amount) == Members(head) + others;
    RankedTotalAppend(Members(head), others);
    RankedTotalOfMembers(head);
    assert others[1..] == [];
    assert RankedTotal(others) == SumCounts(tail);
  }

  datatype Kind = Messages | Characters

  /**
   * What a ranking query asks of the guild table: the count it groups, the lower bound
   * on `epoch` (`epoch_start.timestamp()`, here in microseconds) and its `LIMIT`.
   */
  datatype TopQuery = TopQuery(kind: Kind, since: Option<int>, limit: Option<int>)

  /** The lower bound the query puts on `epoch`, at the given UTC offset. */
  function SinceBound(start: Option<Calendar.DateTime>, offset: int): Option<int>
    requires start.Some? ==> Calendar.Valid(start.value)
  {
    match start
    case None => None
    case Some(s) => Some(Calendar.EpochMicros(s, offset))
  }

  /**
   * `get_top_users`. `clock(h)` is the wall-clock time at UTC offset `h` hours (what
   * `datetime.now` reads), and `grouped` is what the ranking query selects before any
   * `LIMIT`, one row per member in descending order of count. `query` is the ranking
   * query issued, if any.
   */
  method GetTopUsers(db: Db.Database, guild: int, type_: string, amount: int, timeperiod: Option<string>,
                     countOthers: bool, clock: int -> Calendar.DateTime, grouped: seq<TopRow>)
    returns (query: Option<TopQuery>, r: Result<Option<seq<Ranked>>, TopError>)
    requires forall h :: Calendar.Valid(clock(h))
    ensures ParsePeriod(timeperiod).Err? ==> query == None && r == Err(InvalidPeriod)
    ensures ParsePeriod(timeperiod).Ok? && !db.connected ==> query == None && r == Err(Database(Db.NotConnected))
    ensures ParsePeriod(timeperiod).Ok? && db.connected ==>
      var stored := Db.LookupTimezone(db.config, guild);
      var offset := ResolveOffset(stored);
      && (offset.Err? ==> query == None && r == Err(offset.error))
      && (offset.Ok? ==>
        var start := PeriodStart(ParsePeriod(timeperiod).value, clock(offset.value));
        && (start.Err? ==> query == None && r == Err(start.error))
        && (start.Ok? && type_ == "messages" ==>
          && query == Some(TopQuery(Messages, SinceBound(start.value, offset.value), if countOthers then None else Some(amount)))
          && (db.TableStatus(guild).Fail? ==> r == Err(Database(db.TableStatus(guild).error)))
          && (db.TableStatus(guild).Pass? && !countOthers && amount < 0 ==> r == Err(NegativeLimit(amount)))
          && (db.TableStatus(guild).Pass? && countOthers ==> r == Ok(Some(OthersFold(grouped, amount))))
          && (db.TableStatus(guild).Pass? && !countOthers && amount >= 0 ==> r == Ok(Some(Members(Take(grouped, amount))))))
        && (start.Ok? && type_ == "characters" ==>
          && query == Some(TopQuery(Characters, SinceBound(start.value, offset.value), None))
          && (db.TableStatus(guild).Fail? ==> r == Err(Database(db.TableStatus(guild).error)))
          && (db.TableStatus(guild).Pass? ==> r == Ok(Some(Members(Take(grouped, amount))))))
        && (start.Ok? && type_ != "messages" && type_ != "characters" ==> query == None && r == Ok(None)))
  {
    query := None;
    var period := ParsePeriod(timeperiod);
    if period.Err? {
      return query, Err(period.error);
    }
    var stored := db.GetTimezone(guild);
    if stored.Err? {
      return query, Err(Database(stored.error));
    }
    var offset := ResolveOffset(stored.value);
    if offset.Err? {
      return query, Err(offset.error);
    }
    var start := PeriodStart(period.value, clock(offset.value));
    if start.Err? {
      return query, Err(start.error);
    }
    var since := SinceBound(start.value, offset.value);
    if type_ == "messages" {
      var limit := if countOthers then None else Some(amount);
      query := Some(TopQuery(Messages, since, limit));
      var status := db.TableStatus(guild);
      if status.Fail? {
        return query, Err(Database(status.error));
      }
      if limit.Some? && amount < 0 {
        return query, Err(NegativeLimit(amount));
      }
      var top := if limit.Some? then Take(grouped, amount) else grouped;
      if countOthers {
        r := Ok(Some(OthersFold(top, amount)));
      } else {
        TakeTake(grouped, amount);
        r := Ok(Some(Members(Take(top, amount))));
      }
    } else if type_ == "characters" {
      query := Some(TopQuery(Characters, since, None));
      var status := db.TableStatus(guild);
      if status.Fail? {
        return query, Err(Database(status.error));
      }
      r := Ok(Some(Members(Take(grouped, amount))));
    } else {
      r := Ok(None);
    }
  }

  // ---------------------------------------------------------------------------
  // Top channels by characters
  // ---------------------------------------------------------------------------

  /** One selected row: `channel_id` and `message_content`. */
  datatype ChannelMessage = ChannelMessage(channel: int, content: string)

  /** The channels of the rows, in order, each one once, where it first appears. */
  function FirstSeen(rows: seq<ChannelMessage>): (chs: seq<int>)
    ensures forall c :: c in chs <==> exists i :: 0 <= i < |rows| && rows[i].channel == c
  {
    if rows == [] then []
    else
      var prev := FirstSeen(rows[..|rows| - 1]);
      var c := rows[|rows| - 1].channel;
      if c in prev then prev else prev + [c]
  }

  /** The characters of the channel's rows. */
  function ChannelChars(rows: seq<ChannelMessage>, c: int): (n: nat) {
    if rows == [] then 0
    else ChannelChars(rows[..|rows| - 1], c) + (if rows[|rows| - 1].channel == c then |rows[|rows| - 1].content| else 0)
  }

  /** A channel with no rows has no characters. */
  lemma {:induction false} ChannelCharsAbsent(rows: seq<ChannelMessage>, c: int)
    requires c !in FirstSeen(rows)
    ensures ChannelChars(rows, c) == 0
  {
    if rows != [] {
      var init := rows[..|rows| - 1];
      assert forall i :: 0 <= i < |init| ==> init[i] == rows[i];
      ChannelCharsAbsent(init, c);
    }
  }

  lemma {:induction false} FirstSeenDistinct(rows: seq<ChannelMessage>)
    ensures forall i, j :: 0 <= i < j < |FirstSeen(rows)| ==> FirstSeen(rows)[i] != FirstSeen(rows)[j]
  {
    if rows != [] {
      FirstSeenDistinct(rows[..|rows| - 1]);
    }
  }

  /** `(channel, total)` pairs. */
  datatype Tally = Tally(channel: int, total: int)

  function ChannelsOf(s: seq<Tally>): (chs: seq<int>)
    ensures |chs| == |s|
    ensures forall i :: 0 <= i < |s| ==> chs[i] == s[i].channel
  {
    if s == [] then [] else [s[0].channel] + ChannelsOf(s[1..])
  }

  predicate Descending(s: seq<Tally>) {
    forall i, j :: 0 <= i < j < |s| ==> s[i].total >= s[j].total
  }

  predicate DistinctChannels(s: seq<Tally>) {
    forall i, j :: 0 <= i < j < |s| ==> s[i].channel != s[j].channel
  }

  /** Inserts `x` after every entry whose total is at least its own. */
  function InsertByTotal(x: Tally, s: seq<Tally>): (r: seq<Tally>)
    ensures |r| == |s| + 1
    ensures multiset(r) == multiset(s) + multiset{x}
  {
    if s == [] then [x]
    else if s[0].total >= x.total then
      assert s == [s[0]] + s[1..];
      [s[0]] + InsertByTotal(x, s[1..])
    else [x] + s
  }

  lemma {:induction false} InsertKeepsDescending(x: Tally, s: seq<Tally>)
    requires Descending(s)
    ensures Descending(InsertByTotal(x, s))
  {
    if s != [] && s[0].total >= x.total {
      var rest := InsertByTotal(x, s[1..]);
      InsertKeepsDescending(x, s[1..]);
      forall k | 0 <= k < |rest| ensures s[0].total >= rest[k].total {
        assert rest[k] in multiset(rest);
        assert rest[k] in multiset(s[1..]) || rest[k] == x;
        if rest[k] != x {
          var m :| 0 <= m < |s[1..]| && s[1..][m] == rest[k];
          assert s[m + 1] == rest[k];
        }
      }
    }
  }

  lemma {:induction false} InsertKeepsDistinct(x: Tally, s: seq<Tally>)
    requires DistinctChannels(s)
    requires forall k :: 0 <= k < |s| ==> s[k].channel != x.channel
    ensures DistinctChannels(InsertByTotal(x, s))
  {
    if s != [] && s[0].total >= x.total {
      var rest := InsertByTotal(x, s[1..]);
      InsertKeepsDistinct(x, s[1..]);
      forall k | 0 <= k < |rest| ensures s[0].channel != rest[k].channel {
        assert rest[k] in multiset(rest);
        assert rest[k] in multiset(s[1..]) || rest[k] == x;
        if rest[k] != x {
          var m :| 0 <= m < |s[1..]| && s[1..][m] == rest[k];
          assert s[m + 1] == rest[k];
        }
      }
    }
  }

  /**
   * `Counter.most_common()`: the entries by descending total; entries with equal totals
   * keep their order, as Python's stable sort keeps it.
   */
  function MostCommon(items: seq<Tally>): (r: seq<Tally>)
    ensures |r| == |items|
    ensures multiset(r) == multiset(items)
    ensures Descending(r)
  {
    if items == [] then []
    else
      var init, last := items[..|items| - 1], items[|items| - 1];
      assert items == init + [last];
      InsertKeepsDescending(last, MostCommon(init));
      InsertByTotal(last, MostCommon(init))
  }

  /** Sorting entries with distinct channels keeps the channels distinct. */
  lemma {:induction false} MostCommonKeepsDistinct(items: seq<Tally>)
    requires DistinctChannels(items)
    ensures DistinctChannels(MostCommon(items))
  {
    if items != [] {
      var init, last := items[..|items| - 1], items[|items| - 1];
      var sorted := MostCommon(init);
      MostCommonKeepsDistinct(init);
      forall k | 0 <= k < |sorted| ensures sorted[k].channel != last.channel {
        assert sorted[k] in multiset(init);
        var m :| 0 <= m < |init| && init[m] == sorted[k];
        assert items[m] == sorted[k];
      }
      InsertKeepsDistinct(last, sorted);
    }
  }

  /**
   * The `Counter` loop: one total per channel, in the order the channels first appear
   * (the order of a `Counter`'s keys), each the sum of `len(message)` over its rows.
   */
  method CountCharacters(rows: seq<ChannelMessage>) returns (items: seq<Tally>)
    ensures ChannelsOf(items) == FirstSeen(rows)
    ensures forall i :: 0 <= i < |items| ==> items[i].total == ChannelChars(rows, items[i].channel)
  {
    var counts: map<int, int> := map[];
    var order: seq<int> := [];
    var i := 0;
    while i < |rows|
      invariant 0 <= i <= |rows|
      invariant order == FirstSeen(rows[..i])
      invariant forall c :: c in counts <==> c in order
      invariant forall c :: c in counts ==> counts[c] == ChannelChars(rows[..i], c)
    {
      var c, len := rows[i].channel, |rows[i].content|;
      ghost var done, next := rows[..i], rows[..i + 1];
      assert next[..i] == done && next[i] == rows[i];
      ghost var before := counts;
      if c !in counts {
        ChannelCharsAbsent(done, c);
      }
      if c in counts {
        counts := counts[c := counts[c] + len];
      } else {
        counts := counts[c := len];
        order := order + [c];
      }
      forall d | d in counts ensures counts[d] == ChannelChars(next, d) {
        assert ChannelChars(next, d) == ChannelChars(done, d) + (if d == c then len else 0);
        if d != c {
          assert counts[d] == before[d];
        }
      }
      i := i + 1;
    }
    assert rows[..i] == rows;
    forall k | 0 <= k < |order| ensures order[k] in counts {
      assert order[k] in order;
    }
    items := seq(|order|, k requires 0 <= k < |order| => Tally(order[k], counts[order[k]]));
  }

  /** What sorting the tallies keeps: the same channels, each with its own total. */
  lemma SortedTallies(rows: seq<ChannelMessage>, items: seq<Tally>, sorted: seq<Tally>)
    requires ChannelsOf(items) == FirstSeen(rows)
    requires forall i :: 0 <= i < |items| ==> items[i].total == ChannelChars(rows, items[i].channel)
    requires multiset(sorted) == multiset(items)
    ensures forall k :: 0 <= k < |sorted| ==>
      sorted[k].channel in FirstSeen(rows) && sorted[k].total == ChannelChars(rows, sorted[k].channel)
    ensures forall c :: c in FirstSeen(rows) ==> c in ChannelsOf(sorted)
  {
    forall k | 0 <= k < |sorted|
      ensures sorted[k].channel in FirstSeen(rows) && sorted[k].total == ChannelChars(rows, sorted[k].channel)
    {
      assert sorted[k] in multiset(items);
      var m :| 0 <= m < |items| && items[m] == sorted[k];
      assert ChannelsOf(items)[m] == sorted[k].channel;
    }
    forall c | c in FirstSeen(rows) ensures c in ChannelsOf(sorted) {
      var m :| 0 <= m < |items| && ChannelsOf(items)[m] == c;
      assert items[m] in multiset(sorted);
      var k :| 0 <= k < |sorted| && sorted[k] == items[m];
      assert ChannelsOf(sorted)[k] == c;
    }
  }

  /** A prefix of a descending list holds the largest entries: nothing left out is larger. */
  lemma PrefixHoldsLargest(sorted: seq<Tally>, n: nat, k: nat)
    requires Descending(sorted) && n <= |sorted| && k < |sorted|
    requires forall j :: 0 <= j < n ==> sorted[j].channel != sorted[k].channel
    ensures k >= n
    ensures forall i :: 0 <= i < n ==> sorted[i].total >= sorted[k].total
  {
    var ch := sorted[k].channel;
    if k < n {
      assert false;
    }
  }

  function IndexOf(s: seq<int>, x: int): (k: nat)
    requires x in s
    ensures k < |s| && s[k] == x
  {
    if s[0] == x then 0 else 1 + IndexOf(s[1..], x)
  }

  /**
   * `get_top_channels` for characters: the channel totals by descending total, cut to
   * `top_channels[:amount]`.
   */
  method TopChannelsByCharacters(rows: seq<ChannelMessage>, amount: int) returns (top: seq<Tally>)
    ensures |top| == SliceBound(|FirstSeen(rows)|, amount)
    ensures Descending(top) && DistinctChannels(top)
    ensures forall i :: 0 <= i < |top| ==>
      top[i].channel in FirstSeen(rows) && top[i].total == ChannelChars(rows, top[i].channel)
    ensures forall c, i :: c in FirstSeen(rows) && c !in ChannelsOf(top) && 0 <= i < |top| ==>
      top[i].total >= ChannelChars(rows, c)
  {
    var items := CountCharacters(rows);
    var sorted := MostCommon(items);
    top := Take(sorted, amount);
    FirstSeenDistinct(rows);
    SortedTallies(rows, items, sorted);
    assert DistinctChannels(items) by {
      forall i, j | 0 <= i < j < |items| ensures items[i].channel != items[j].channel {
        assert ChannelsOf(items)[i] == items[i].channel && ChannelsOf(items)[j] == items[j].channel;
      }
    }
    MostCommonKeepsDistinct(items);
    TakeHoldsLargest(sorted, amount);
    forall c, i | c in FirstSeen(rows) && c !in ChannelsOf(top) && 0 <= i < |top|
      ensures top[i].total >= ChannelChars(rows, c)
    {
      var k := IndexOf(ChannelsOf(sorted), c);
      assert sorted[k].channel == c;
    }
  }

  /** `sorted[:amount]` of a descending list: every entry left out is at most every entry kept. */
  lemma TakeHoldsLargest(sorted: seq<Tally>, amount: int)
    requires Descending(sorted)
    ensures forall c, i :: c in ChannelsOf(sorted) && c !in ChannelsOf(Take(sorted, amount)) && 0 <= i < |Take(sorted, amount)| ==>
      Take(sorted, amount)[i].total >= sorted[IndexOf(ChannelsOf(sorted), c)].total
  {
    var top := Take(sorted, amount);
    forall c, i | c in ChannelsOf(sorted) && c !in ChannelsOf(top) && 0 <= i < |top|
      ensures top[i].total >= sorted[IndexOf(ChannelsOf(sorted), c)].total
    {
      var k := IndexOf(ChannelsOf(sorted), c);
      forall j | 0 <= j < |top| ensures sorted[j].channel != sorted[k].channel {
        assert ChannelsOf(top)[j] == top[j].channel;
      }
      PrefixHoldsLargest(sorted, |top|, k);
    }
  }

  /**
   * `get_top_channels`. `counted` is what the messages query selects before its `LIMIT`
   * (channels by descending message count) and `rows` what the characters query selects.
   * Any other `type_` falls through to None.
   */
  method GetTopChannels(db: Db.Database, guild: int, type_: string, amount: int,
                        counted: seq<Tally>, rows: seq<ChannelMessage>)
    returns (r: Result<Option<seq<Tally>>, TopError>)
    ensures (type_ == "messages" || type_ == "characters") && db.TableStatus(guild).Fail? ==>
      r == Err(Database(db.TableStatus(guild).error))
    ensures type_ == "messages" && db.TableStatus(guild).Pass? ==>
      r == if amount < 0 then Err(NegativeLimit(amount)) else Ok(Some(Take(counted, amount)))
    ensures type_ == "characters" && db.TableStatus(guild).Pass? ==>
      r.Ok? && r.value.Some? && var top := r.value.value;
      && |top| == SliceBound(|FirstSeen(rows)|, amount)
      && Descending(top) && DistinctChannels(top)
      && (forall i :: 0 <= i < |top| ==> top[i].channel in FirstSeen(rows) && top[i].total == ChannelChars(rows, top[i].channel))
      && (forall c, i :: c in FirstSeen(rows) && c !in ChannelsOf(top) && 0 <= i < |top| ==> top[i].total >= ChannelChars(rows, c))
    ensures type_ != "messages" && type_ != "characters" ==> r == Ok(None)
  {
    if type_ != "messages" && type_ != "characters" {
      return Ok(None);
    }
    var status := db.TableStatus(guild);
    if status.Fail? {
      return Err(Database(status.error));
    }
    if type_ == "messages" {
      if amount < 0 {
        return Err(NegativeLimit(amount));
      }
      r := Ok(Some(Take(counted, amount)));
    } else {
      var top := TopChannelsByCharacters(rows, amount);
      r := Ok(Some(top));
    }
  }

  // ---------------------------------------------------------------------------
  // The chart title's period words
  // ---------------------------------------------------------------------------

  /** The words `get_top_users_visual` puts in the title for the period; any other value is kept. */
  function TitlePeriod(timeperiod: Option<string>): (title: string)
    ensures timeperiod == None ==> title == "All Time"
    ensures timeperiod == Some("day") ==> title == "today"
    ensures timeperiod == Some("week") ==> title == "this Week"
    ensures timeperiod == Some("month") ==> title == "this Month"
    ensures timeperiod == Some("year") ==> title == "this Year"
    ensures timeperiod.Some? && timeperiod.value !in ["day", "week", "month", "year"] ==> title == timeperiod.value
  {
    match timeperiod
    case None => "All Time"
    case Some(t) =>
      if t == "day" then "today"
      else if t == "week" then "this Week"
      else if t == "month" then "this Month"
      else if t == "year" then "this Year"
      else t
  }

  /** Different periods get different title words, and each valid period has its own. */
  lemma TitlePeriodInjective(p: Period, q: Period)
    ensures TitlePeriod(PeriodName(p)) == TitlePeriod(PeriodName(q)) <==> p == q
  {
  }
}

=== FILE: wrappers.dfy ===
/** Option and Result values standing in for Python's `None` and for raised exceptions. */
module Wrappers {

  /** A value that may be absent (`None` in the source). */
  datatype Option<+T> = None | Some(value: T)

  /** The outcome of a call that either returns a value or raises an exception. */
  datatype Result<+T, +E> = Ok(value: T) | Err(error: E)

  /** The outcome of a call that returns nothing or raises an exception. */
  datatype Outcome<+E> = Pass | Fail(error: E)
}
